=== FILE: README.md ===
# CRM core, modelled in Dafny

A model of the Django CRM app `crm_app`: its records (companies, customers,
interactions and the user accounts that act as sales representatives) and the
delete rules their foreign keys declare, the three management commands
(`populate_data`, `clear_data`, `validate_data`), and the list, detail and
dashboard views. The database is a `Store` of four tables, each a sequence of
rows. Every command and view becomes a pure function, or a method where the
source loops, over that store. Timestamps are integer seconds; calendar dates
(`birth_date`, "today") are integer days, and today is `now / 86400`.

Modules, one per file:

- `Wrappers` (wrappers.dfy): `Option` and `Result`.
- `Seqs` (seqs.dfy): order-preserving `Filter`, `Count`, `Sum` and their lemmas.
- `Text` (text.dfy): Python's `str.lower` and the case-insensitive substring
  test behind `icontains`.
- `Sorting` (sorting.dfy): `order_by` on one or two text columns, as an
  insertion sort proved to give a sorted permutation.
- `Models` (models.dfy): records, the interaction-type choices,
  `get_full_name`, store validity, and the checked deletes. PROTECT from a
  customer to its company and sales representative; CASCADE from an
  interaction to its customer.
- `Clear` (clear.dfy): the `clear_data` command, and the `_clear_existing_data`
  step of `populate_data`.
- `Populate` (populate.dfy): the generation rules of `populate_data`. Random
  draws are parameters bounded by `requires`.
- `Validate` (validate.dfy): the three verdicts of `validate_data` and the age
  formula.
- `Views` (views.dfy): the list filters and ordering, the detail counts, and
  the dashboard's percentage guard.

The main results:

- Clearing in the order interactions, customers, companies, sales
  representatives is never refused by a PROTECT rule. It leaves exactly the
  superusers, and the announced total is exactly the number of rows removed.
- Company names are accepted only while unused and at most 200 characters
  long. The loop stops with exactly the requested number of names, or it
  reports that the supply ran out.
- Round-robin assignment gives every representative `n / k` or `n / k + 1`
  customers, so the validator never flags the distribution as unbalanced.
- Every generated interaction is dated before `now - 1 hour`. It falls before
  its customer's creation only when the customer is less than 73 hours old.
  The repair pass then moves exactly those interactions into
  `[created_at, now]`, changes nothing else, and leaves none to repair.
- The list filters are one conjunction, independent of the order they are
  applied in. The detail counts partition the total. Dashboard percentages
  exist exactly when the total is positive, and then they add up to 100.

## Model

| member | source | states |
|---|---|---|
| Models.ParseType | crm_app/models.py:8-16 | a stored type value reads back as a choice exactly when it is one of the seven labels Call, Email, SMS, Facebook, WhatsApp, Meeting, Other; each label fits the 20-character column |
| Models.FullName | crm_app/models.py:85-87 | the full name is the first name, then one space, then the last name, character for character |
| Models.FullNameRoundTrip | crm_app/models.py:85-87 | splitting a full name at its first space gives back first and last name whenever the first name has no space |
| Models.DeleteCompanies | crm_app/models.py:54-59 | deleting companies is refused, with a positive count of blocking customers, exactly when some customer references one of them; otherwise exactly those companies go, the other tables are untouched and a valid store stays valid |
| Models.DeleteCompany | crm_app/models.py:54-59 | deleting one company is refused exactly when a customer references it; otherwise only that company is gone and the store stays valid |
| Models.DeleteUsers | crm_app/models.py:60-65 | deleting accounts is refused exactly when some customer has one of them as sales representative; otherwise exactly those accounts go and nothing else changes |
| Models.DeleteUser | crm_app/models.py:60-65 | deleting one account is refused exactly when it is some customer's representative; otherwise only that account is gone and the store stays valid |
| Models.DeleteCustomers | crm_app/models.py:94-99 | deleting customers is never refused; it removes exactly those customers and exactly the interactions referencing them, keeps users and companies, and keeps the store valid |
| Models.DeleteCustomer | crm_app/models.py:94-99 | deleting one customer removes exactly that customer and its interactions (CASCADE) and nothing else |
| Models.DeleteAllInteractions | crm_app/management/commands/clear_data.py:84-86 | deleting every interaction empties that table, touches no other, and keeps the store valid |
| Text.Lower | crm_app/management/commands/clear_data.py:43 | lower-casing keeps the length and maps every character through the Latin-1 case table |
| Text.ContainsIgnoreCaseMeaning | crm_app/views.py:88-91 | `icontains`, read as Python-style lower-casing of both sides, holds exactly when the lower-cased needle occurs at some position of the lower-cased text, and it ignores the case of both sides |
| Sorting.Sort | crm_app/views.py:105-108 | ordering returns a permutation of its input, ascending by the key |
| Clear.SpellingsConfirm | crm_app/management/commands/clear_data.py:41-45 | each of the twenty spellings of sí, si, s, yes, y in any letter case confirms |
| Clear.OnlySpellingsConfirm | crm_app/management/commands/clear_data.py:41-45 | no other answer confirms |
| Clear.ConfirmedExactly | crm_app/management/commands/clear_data.py:41-45 | an answer confirms exactly when it is one of those twenty spellings |
| Clear.Handle | crm_app/management/commands/clear_data.py:30-56 | without `--force` and without a confirming answer the store is unchanged and the command is cancelled; otherwise it completes and leaves only superusers; an aborted run leaves the store as it was |
| Clear.DeleteInteractionsAndCustomers | crm_app/management/commands/clear_data.py:82-97 | steps 1 and 2 empty the interaction and customer tables, keep users and companies, and keep the store valid |
| Clear.DeleteAllCompanies | crm_app/management/commands/clear_data.py:99-105 | step 3 is refused exactly when a customer still references a company; otherwise only the company table is emptied |
| Clear.DeleteUsersInTurn | crm_app/management/commands/clear_data.py:110-113 | deleting accounts one at a time fails exactly when one of them is still some customer's representative; otherwise exactly those accounts are gone, the other tables are untouched and validity is kept |
| Clear.DeleteSalesReps | crm_app/management/commands/clear_data.py:107-119 | step 4 removes exactly the non-superuser accounts, and is refused exactly when a customer still references one |
| Clear.ClearAllData | crm_app/management/commands/clear_data.py:77-119 | in this order no step is refused; afterwards interactions, customers and companies are empty and the remaining accounts are exactly the superusers (all of them, with unique ids) |
| Clear.ClearIdempotent | crm_app/management/commands/clear_data.py:84-113 | on a store with no CRM data every step is skipped and nothing changes, so clearing twice equals clearing once |
| Clear.TotalToDeleteIsRemoved | crm_app/management/commands/clear_data.py:58-75 | the announced total (interactions + customers + companies + sales reps) is exactly the number of rows clearing removes, and the superuser count is unchanged |
| Clear.VerifyCleanup | crm_app/management/commands/clear_data.py:124-153 | the cleanup is reported perfect exactly when no interaction, customer, company or non-superuser is left; superusers are counted but never a defect |
| Clear.ClearThenVerifyIsPerfect | crm_app/management/commands/clear_data.py:121-148 | after clearing, the check always reports a perfect cleanup and the same number of superusers as before |
| Clear.BulkDeleteSalesReps | crm_app/management/commands/populate_data.py:122-123 | the bulk delete of the non-superusers is refused exactly when a customer references one; otherwise exactly those accounts go |
| Clear.ClearExistingData | crm_app/management/commands/populate_data.py:98-126 | the generator's clearing step never fails and leaves empty interaction, customer and company tables and exactly the accounts that are not sales representatives |
| Clear.ClearExistingMatchesClearAll | crm_app/management/commands/populate_data.py:98-126 | the generator's clearing step and `clear_data` leave the same rows |
| Populate.AddSalesReps | crm_app/management/commands/populate_data.py:159-172 | every profile's username exists afterwards; existing accounts are kept; new accounts are sales representatives with fresh ids and a profile's username; unique ids and usernames are kept |
| Populate.CreateSalesReps | crm_app/management/commands/populate_data.py:128-178 | the three representatives exist afterwards, only the user table grows, and a valid store stays valid |
| Populate.CandidateName | crm_app/management/commands/populate_data.py:199-202 | a candidate is the drawn name, or the drawn name, a space and one of the six suffixes |
| Populate.Candidates | crm_app/management/commands/populate_data.py:196-202 | one candidate per draw, in order |
| Populate.AcceptNames | crm_app/management/commands/populate_data.py:204-206 | the accepted names are pairwise distinct, and a name is accepted exactly when it is a candidate of at most 200 characters |
| Populate.AcceptUntil | crm_app/management/commands/populate_data.py:195-213 | the loop succeeds exactly when the candidates hold enough acceptable names; it then returns exactly that many, as a prefix of the accepted names, distinct and at most 200 characters each |
| Populate.CreateCompanyNames | crm_app/management/commands/populate_data.py:192-213 | the same for the candidates built from the draws |
| Populate.InsertCompanies | crm_app/management/commands/populate_data.py:215-216 | the insert fails exactly when a name is already taken or appears twice in the batch (the unique name column of models.py:24); otherwise it appends one active company per name, in order, and keeps the store valid |
| Populate.InsertedCompaniesValid | crm_app/models.py:24 | after the insert, company names are still unique and at most 200 characters, and ids are unique |
| Populate.TypeShare | crm_app/management/commands/populate_data.py:313-325 | each type occurs in the weighted list as often as its weight in percent |
| Populate.WeightedTypesShares | crm_app/management/commands/populate_data.py:313-325 | the weighted list has 100 entries: 40 Call, 30 Email, 15 Meeting, 8 SMS, 5 WhatsApp, 2 Facebook and no Other |
| Populate.PickType | crm_app/management/commands/populate_data.py:390 | a drawn type is one of the choices and never Other |
| Populate.CountBounds | crm_app/management/commands/populate_data.py:333-336 | the count range is exactly 4/5 and 6/5 of the target (40..60 fast, 400..600 normal) and contains the target |
| Populate.AdjustWindow | crm_app/management/commands/populate_data.py:339-352 | after the adjustment start < end <= now - 1 hour; an old customer keeps (created_at, now - 1 hour); a customer younger than an hour gets the seven days before now - 1 hour |
| Populate.DaysDiff | crm_app/management/commands/populate_data.py:356 | the day span is at least 1 and, for a window of a day or more, the floor of its length in days |
| Populate.InteractionDate | crm_app/management/commands/populate_data.py:358-387 | every date is strictly before now - 1 hour; a date before the customer's creation only comes from the last clamp, when the customer is under 73 hours old; for older customers the date is never before creation |
| Populate.NewCustomer | crm_app/management/commands/populate_data.py:237-265 | customer i gets representative i mod k, an existing company, a creation time within the last 729 days with updated_at equal to it, and, when drawn, a birth date 18 to 65 years of 365 days back |
| Populate.CreateCustomers | crm_app/management/commands/populate_data.py:223-265 | with no representatives it fails at once, with no companies on the first customer; otherwise one customer per draw with consecutive ids, round-robin representatives and the properties above |
| Populate.LoadFormula | crm_app/management/commands/populate_data.py:237-239 | representative j of k receives exactly n / k customers, plus one when j < n mod k |
| Populate.LoadsBalanced | crm_app/management/commands/populate_data.py:237-239 | any two representatives' counts differ by at most one, and each lies in [n / k, n / k + 1] |
| Populate.RoundRobinCount | crm_app/management/commands/populate_data.py:237-239 | with distinct representatives, the number of customers of representative j is that load |
| Populate.CreatedCustomersBalanced | crm_app/management/commands/populate_data.py:232-239 | the generated customers are spread over the representatives within one of each other |
| Populate.NewInteraction | crm_app/management/commands/populate_data.py:389-398 | a generated interaction belongs to its customer, is dated before now - 1 hour, is of a type other than Other, and is before its customer only in the clamp case |
| Populate.InteractionsFor | crm_app/management/commands/populate_data.py:354-398 | one interaction per draw for a customer, with consecutive ids, each with the properties above |
| Populate.CreateInteractions | crm_app/management/commands/populate_data.py:331-398 | the total lies between 4/5 and 6/5 of target times customers; ids are consecutive; every interaction has the properties above for one of the customers (the per-customer counts are the next row's) |
| Populate.PerCustomerCountInRange | crm_app/management/commands/populate_data.py:331-398 | with distinct customer ids, each customer receives exactly its own drawn number of interactions, so between 4/5 and 6/5 of the per-customer target |
| Populate.DefaultVolumes | crm_app/management/commands/populate_data.py:331-336 | a thousand customers get 40 000..60 000 interactions in fast mode and 400 000..600 000 otherwise |
| Populate.CreatedAtOf | crm_app/management/commands/populate_data.py:430-432 | the join finds a creation time exactly when the customer exists, and with unique ids it is that customer's |
| Populate.RepairedDate | crm_app/management/commands/populate_data.py:449-464 | the repaired date is never after now and, when the customer was created by now, never before its creation (strictly after when created before now) |
| Populate.RepairOne | crm_app/management/commands/populate_data.py:446-466 | a row not dated before its customer is left as it is; a problematic row changes only its date, to one in [created_at, now], and is no longer problematic |
| Populate.FixProblematicInteractions | crm_app/management/commands/populate_data.py:424-484 | the fixed count equals the number of problematic rows found; other rows are unchanged; fixed rows change only their date, within [created_at, now]; when no customer is created after now, none remains problematic |
| Populate.NoneProblematicAfter | crm_app/management/commands/populate_data.py:474-484 | the final recount is zero once every problematic row was moved after its customer's creation |
| Validate.BasicIssues | crm_app/management/commands/validate_data.py:90-103 | an issue is raised for a table exactly when its count is below 3, 30, 800 or 40 000, and the list is empty exactly when all four counts reach them |
| Validate.BasicValidation | crm_app/management/commands/validate_data.py:76-110 | counts are reported in range exactly when non-superusers >= 3, companies >= 30, customers >= 800 and interactions >= 40 000 |
| Validate.PopulatedCountsInRange | crm_app/management/commands/validate_data.py:93-110 | the default population (the 3 profiles and 50 companies taken as given, 1000 customers with the interactions `CreateInteractions` yields) passes the count check in either mode |
| Validate.CheckIntegrity | crm_app/management/commands/validate_data.py:117-132 | the three null counts are zero; the invalid company and representative counts are zero exactly when every customer's company and representative exist |
| Validate.IntegrityVerdict | crm_app/management/commands/validate_data.py:134-157 | the integrity verdict is "correct" exactly when every customer's company and representative exist |
| Validate.UnderageIffAgeBelow18 | crm_app/management/commands/validate_data.py:179-183 | a birth date is after today - 18*365 days exactly when the age formula gives less than 18 |
| Validate.AgeOfGeneratedBirth | crm_app/management/commands/validate_data.py:264 | the age formula `(today - birth) // 365` gives back n for a birth date n*365 days before today |
| Validate.FutureBirthIsUnderage | crm_app/management/commands/validate_data.py:164-183 | a future birth date is also an underage one |
| Validate.GeneratedCustomerAdult | crm_app/management/commands/populate_data.py:246-248 | a generated customer is never counted as underage, on the day of generation or later |
| Validate.RepIdsOf | crm_app/management/commands/validate_data.py:186-188 | the groups are the representatives that exist and have at least one customer, each once; a customer whose representative row is missing joins no group |
| Validate.RepLoads | crm_app/management/commands/validate_data.py:186-188 | one count per group, the number of customers of that representative, each between 1 and the number of customers; there are no groups exactly when no customer's representative exists |
| Validate.MaxOf | crm_app/management/commands/validate_data.py:190 | the maximum is a group count and at least every other |
| Validate.MinOf | crm_app/management/commands/validate_data.py:191 | the minimum is a group count and at most every other |
| Validate.Imbalanced | crm_app/management/commands/validate_data.py:190-210 | imbalance is flagged exactly when there is no group, some count is zero, or one count exceeds twice another |
| Validate.RoundRobinNotImbalanced | crm_app/management/commands/validate_data.py:185-210 | customers assigned round-robin over distinct, existing representatives are never flagged as unbalanced |
| Validate.MissingRepresentativesFlagged | crm_app/management/commands/validate_data.py:185-191 | when no customer's representative exists the distribution has no group and is flagged as unbalanced |
| Validate.CheckBusinessLogic | crm_app/management/commands/validate_data.py:164-192 | future births never exceed underage customers; each count is zero exactly when no record has the defect; the invalid-date count is the repair pass's problematic count; the imbalance flag is taken over the customers whose representative exists |
| Validate.BusinessVerdict | crm_app/management/commands/validate_data.py:195-217 | "correct" exactly when no customer is underage, no interaction is in the future or before its customer, some customer's representative exists, and no group exceeds twice another |
| Views.ParseStatus | crm_app/views.py:99-103 | "active" and "inactive" select their filter; any other value, or none, selects nothing |
| Views.FilterCustomers | crm_app/views.py:85-103 | a customer is listed exactly when it passes search, company and status; the result is a sub-multiset of the input and has no repeats when the input has none |
| Views.FilterOrderIrrelevant | crm_app/views.py:85-103 | the list is the single-pass filter by the conjunction of the three tests, and each of the six orders of applying the filters gives that same list |
| Views.AbsentFiltersKeepAll | crm_app/views.py:85-103 | without parameters the filters keep every customer, in order |
| Views.SearchMeaning | crm_app/views.py:86-91 | a search keeps a customer exactly when the lower-cased text occurs in the lower-cased first or last name |
| Views.CustomerOrderOf | crm_app/views.py:105-108 | no parameter means first_name; "first_name" selects the first-name order and "last_name" the last-name order; the empty text skips `order_by`, leaving the list unordered; every other field name is reported as unsupported |
| Views.NamedOrderSortsByField | crm_app/views.py:105-108 | ordering by "first_name" or "last_name" sorts on that field of the customer alone |
| Views.CustomerList | crm_app/views.py:77-110 | the list is a permutation of the selected customers, so it holds exactly them and is a sub-multiset of the table; it is sorted by the requested field whenever an ordering field is in effect, and promises no order for the empty text |
| Views.NoParametersListsAll | crm_app/views.py:77-110 | with no query parameters the list is every customer, sorted by first name |
| Views.FilterCompanies | crm_app/views.py:162-172 | a company is listed exactly when its name contains the search text (ignoring case) and it passes the status filter |
| Views.CompanyList | crm_app/views.py:157-179 | the company list is a permutation of the selected companies, sorted by name unless the empty text skips `order_by`; other ordering fields are reported |
| Views.CompanyListStrictlyOrdered | crm_app/views.py:174-177 | with unique company names, the listed names are distinct, and they strictly increase whenever `order_by('name')` runs |
| Views.CountByKind | crm_app/views.py:133-142 | calls, emails, meetings and sms are the numbers of interactions of those types, "others" is the number of Facebook, WhatsApp and Other ones, and together they make the total; "others" is zero exactly when every interaction is one of the four named types |
| Views.KindsPartition | crm_app/views.py:133-142 | the counts of calls, emails, meetings, SMS and other kinds add up to the number of interactions |
| Views.DetailStats | crm_app/views.py:127-142 | the total is the number of the customer's interactions, each named count is the number of its interactions of that type and "others" the number of its remaining ones; they add up to the total, which is zero exactly when it has none |
| Views.PercentBounds | crm_app/views.py:51 | a share of a positive total lies in [0, 100] when the count does not exceed the total |
| Views.Shares | crm_app/views.py:48-63 | percentages are attached exactly when the total is positive, one per group, each being count / total * 100 and lying in [0, 100] when the count does not exceed the total |
| Views.SharesSumTo100 | crm_app/views.py:60-63 | when the counts add up to the total, the percentages add up to 100 |
| Views.TypeCounts | crm_app/views.py:56-58 | one count per declared choice, the number of interactions of that type; together they are the number of interactions |
| Views.TypesPartition | crm_app/views.py:56-58 | the counts of the seven types add up to the number of interactions |
| Views.TypeSharesSumTo100 | crm_app/views.py:55-65 | type percentages exist exactly when there are interactions, and then add up to 100 |
| Views.DashboardOf | crm_app/views.py:16-67 | representative percentages exist exactly when there are customers, one per existing representative with customers, each its customers over all customers times 100 and in [0, 100]; type percentages exist exactly when there are interactions, one per choice, each its interactions over all times 100, and add up to 100; the company total is the number of companies; sales representatives and superusers together are all accounts |

## Left out

- Database machinery. Queries, `bulk_create` batching, `select_related` and
  annotations are not modelled. A transaction is all-or-nothing on the store:
  a refused step returns an error and no new store.
- Random draws and Faker. Each draw is a parameter whose `requires` states
  its range. The seeded sequence is not reproduced.
- Output. Console output, emojis, progress messages and the `input()` prompt
  are left out; the prompt's answer is a parameter.
- Clock. The wall clock is the parameter `now`.
- Floating point. The `--performance` timings and their rating are left out,
  and so are the float percentages of `--detailed`.
- Other parts of `--detailed`. Its statistics are left out except the age
  formula: they are read-only reports without a verdict.
- Framework files. `crm_app/admin.py`, `crm_app/urls.py` and
  `crm_app/context_processors.py` are framework registration, routing and a
  count wrapper, with no logic of their own.
- Web layer. Templates, pagination, authentication, `__str__` and
  `get_absolute_url` are not part of this model.
- `populate_data`'s own `_validate_data` (populate_data.py:486 onward) is left
  out. It only reports the orphan counts that `validate_data` also checks.
- Text.Lower: models `str.lower` only for ASCII and Latin-1 capitals. Other
  scripts' case mappings are not modelled.
- Populate.CreateInteractions: uses one `now` for all customers. The source
  reads the clock again for each customer, which makes later customers'
  bounds only looser. Customers are taken in the order given; the source
  orders them by `created_at`.
- Populate.FixProblematicInteractions: the offset `random.uniform(60, T)` is
  modelled as a whole number of seconds in [60, T]. `now` is the clock
  reading of the repair pass.
- Populate.CreateCustomers: Faker's first and last names are not generated.
  The name draws are not constrained to 100 characters, so the result's
  column-width validity is not claimed.
- Validate.Imbalanced: compares max > 2 * min on integers. The source divides
  in floating point, which agrees exactly for counts below 2^52.
- Validate.RepLoads: groups customers by representative id, over the accounts
  that exist, as the inner join does. The source groups by username; the two
  groupings agree when account ids and usernames are each unique, as the
  user table's primary key and unique username column guarantee. On a store
  that breaks either, the model does not promise the source's grouping.
- Validate.CheckIntegrity: the three `isnull` counts are zero by
  construction, because the foreign-key columns are not nullable in the
  model. The check does not look at interactions whose customer is missing,
  and neither does the source.
- Populate.AcceptUntil: reads a finite stream of candidate names, where the
  source keeps drawing until it has enough. When the stream runs out first,
  the model reports `NamesExhausted`; the source would keep looping, and a
  loop that never ends is not modelled.
- Views.CustomerList: supports the ordering values first_name, last_name and
  the empty text. Any other field name, including descending `-field`, is
  reported as unsupported instead of being passed to `order_by`.
  Under the empty text no order is promised: both list querysets carry an
  aggregate annotation and are therefore grouped, and from Django 3.1 on
  `Meta.ordering` is not applied to grouped queries, so the database's row
  order is unspecified. The model returns table order there.
- Views.CompanyList: supports the ordering values name and the empty text
  only, for the same reason, and promises no order under the empty text.
- Views.FilterCustomers: the `company` parameter is taken as an already
  parsed number. A non-numeric value, which makes the source's query raise,
  is not modelled.
- Views.DashboardOf: representative groups are keyed by account rather than
  by the pair of first and last name, so two representatives with the same
  name stay two groups. Representative groups come in the order of their
  first customer, not by descending count. The type list has all seven
  choices in declaration order, zero counts included, while the source lists
  only the types that occur, by descending count. Percentages are exact
  rationals, not floats. The "recent customers" list (latest ten by
  `created_at`) is left out.
- Views.Shares: percentages are exact quotients, not rounded floats.
- Text.ContainsIgnoreCaseMeaning: `icontains` runs in the database, and its
  case folding depends on the backend: SQLite's `LIKE` folds only ASCII
  letters, while PostgreSQL compares `UPPER` of both sides. The model folds
  both sides with Python-style lower-casing over ASCII and Latin-1, so for
  accented letters it can match where SQLite does not.
- Views.SearchMeaning: inherits that reading of `icontains`; on SQLite a
  search that differs from a name only in the case of a non-ASCII letter
  keeps the customer here but not in the source.
- Views.FilterCustomers: its search filter reads `icontains` the same way.
- Views.FilterCompanies: its name search reads `icontains` the same way.
- Sorting.Sort: orders text by code point, which is binary collation. A
  database collation that is case- or accent-aware can order names
  differently.

=== FILE: clear.dfy ===
/** The `clear_data` command (crm_app/management/commands/clear_data.py):
    ask for confirmation unless forced, then delete interactions, customers,
    companies and the non-superuser accounts, in that order, inside one
    transaction, and report the counts before and after. */
module Clear {
  import opened Wrappers
  import opened Seqs
  import opened Text
  import opened Models

  /** The lower-cased answers that confirm the deletion. */
  const Confirmations: seq<string> := ["sí", "si", "s", "yes", "y"]

  /** The confirmation test on the answer typed at the prompt. */
  predicate Confirmed(answer: string) {
    Lower(answer) in Confirmations
  }

  /** Every answer that confirms, in each of its spellings. */
  const ConfirmingAnswers: set<string> := {
    "s", "S", "y", "Y",
    "si", "sI", "Si", "SI", "sí", "sÍ", "Sí", "SÍ",
    "yes", "yeS", "yEs", "yES", "Yes", "YeS", "YEs", "YES"
  }

  /** Each of the twenty spellings confirms. */
  lemma SpellingsConfirm(answer: string)
    requires answer in ConfirmingAnswers
    ensures Confirmed(answer)
  {
    if answer in {"s", "S"} {
      assert |answer| == 1;
      assert LowerChar(answer[0]) == 's';
      assert Lower(answer) == "s";
    } else if answer in {"y", "Y"} {
      assert |answer| == 1;
      assert LowerChar(answer[0]) == 'y';
      assert Lower(answer) == "y";
    } else if answer in {"si", "sI", "Si", "SI"} {
      assert |answer| == 2;
      assert LowerChar(answer[0]) == 's';
      assert LowerChar(answer[1]) == 'i';
      assert Lower(answer) == "si";
    } else if answer in {"sí", "sÍ", "Sí", "SÍ"} {
      assert |answer| == 2;
      assert LowerChar(answer[0]) == 's';
      assert LowerChar(answer[1]) == 'í';
      assert Lower(answer) == "sí";
    } else {
      assert |answer| == 3;
      assert LowerChar(answer[0]) == 'y';
      assert LowerChar(answer[1]) == 'e';
      assert LowerChar(answer[2]) == 's';
      assert Lower(answer) == "yes";
    }
  }

  /** Nothing but the twenty spellings confirms. */
  lemma OnlySpellingsConfirm(answer: string)
    requires Confirmed(answer)
    ensures answer in ConfirmingAnswers
  {
    var l := Lower(answer);
    assert |answer| == |l|;
    if |l| == 1 {
      assert LowerChar(answer[0]) == l[0];
      assert answer == [answer[0]];
    } else if |l| == 2 {
      assert LowerChar(answer[0]) == 's';
      assert LowerChar(answer[1]) == l[1];
      assert answer == [answer[0], answer[1]];
    } else {
      assert LowerChar(answer[0]) == 'y';
      assert LowerChar(answer[1]) == 'e';
      assert LowerChar(answer[2]) == 's';
      assert answer == [answer[0], answer[1], answer[2]];
    }
  }

  /** An answer confirms exactly when it is one of the twenty spellings. */
  lemma ConfirmedExactly(answer: string)
    ensures Confirmed(answer) <==> answer in ConfirmingAnswers
  {
    if Confirmed(answer) {
      OnlySpellingsConfirm(answer);
    }
    if answer in ConfirmingAnswers {
      SpellingsConfirm(answer);
    }
  }

  /** Ids of a sequence of rows. */
  function UserIds(us: seq<User>): set<nat> {
    set u | u in us :: u.id
  }

  function CompanyIds(cs: seq<Company>): set<nat> {
    set co | co in cs :: co.id
  }

  function CustomerIds(cs: seq<Customer>): set<nat> {
    set c | c in cs :: c.id
  }

  /** Deletes the accounts `us` one at a time, in order, as the loop over
      the non-superusers does; the first refused delete aborts the rest. */
  function DeleteUsersInTurn(s: Store, us: seq<User>): (r: Result<Store, DeleteError>)
    decreases |us|
    ensures r.Failure? <==> exists c :: c in s.customers && c.salesRepId in UserIds(us)
    ensures r.Success? ==> r.value.companies == s.companies && r.value.customers == s.customers
                           && r.value.interactions == s.interactions
    ensures r.Success? ==> forall u :: u in r.value.users <==> u in s.users && u.id !in UserIds(us)
    ensures r.Success? && Valid(s) ==> Valid(r.value)
    ensures r.Success? && UserRowsValid(s.users) ==> UserRowsValid(r.value.users)
  {
    if |us| == 0 then
      Success(s)
    else
      assert UserIds(us) == {us[0].id} + UserIds(us[1..]) by {
        assert us == [us[0]] + us[1..];
      }
      match DeleteUser(s, us[0].id)
      case Failure(e) => Failure(e)
      case Success(s1) => DeleteUsersInTurn(s1, us[1..])
  }

  /** Steps 1 and 2 of `_clear_all_data`: every interaction, then every
      customer (cascading to any interaction left); each only when its table
      is not empty. Nothing can refuse either step. */
  function DeleteInteractionsAndCustomers(s: Store): (r: Store)
    ensures r.interactions == [] && r.customers == []
    ensures r.users == s.users && r.companies == s.companies
    ensures Valid(s) ==> Valid(r)
  {
    var s1 := if |s.interactions| > 0 then DeleteAllInteractions(s) else s;
    var s2 := if |s1.customers| > 0 then DeleteCustomers(s1, CustomerIds(s1.customers)) else s1;
    NoMembersEmpty(s2.customers);
    s2
  }

  /** Step 3: every company, when there is one; refused while a customer
      references any of them. */
  function DeleteAllCompanies(s: Store): (r: Result<Store, DeleteError>)
    ensures r.Failure? <==> exists c :: c in s.customers && c.companyId in CompanyIds(s.companies)
    ensures r.Success? ==> r.value == s.(companies := [])
    ensures r.Success? && Valid(s) ==> Valid(r.value)
  {
    if |s.companies| > 0 then
      var r := DeleteCompanies(s, CompanyIds(s.companies));
      if r.Success? then NoMembersEmpty(r.value.companies); r else r
    else
      Success(s)
  }

  /** Ids of the non-superuser accounts. */
  function SalesRepIds(us: seq<User>): set<nat> {
    set u | u in us && !u.isSuperuser :: u.id
  }

  lemma SalesRepIdsOfFilter(us: seq<User>)
    ensures UserIds(Filter(us, IsSalesRep)) == SalesRepIds(us)
  {
    forall id | id in SalesRepIds(us)
      ensures id in UserIds(Filter(us, IsSalesRep))
    {
      var u :| u in us && !u.isSuperuser && u.id == id;
      assert u in Filter(us, IsSalesRep);
    }
  }

  /** With unique ids, the accounts whose id is not a sales representative's
      are exactly the superusers. */
  lemma OutsideSalesRepIdsAreSuperusers(us: seq<User>)
    requires KeyUnique(us, (u: User) => u.id)
    ensures forall u :: u in us ==> (u.id !in SalesRepIds(us) <==> u.isSuperuser)
  {
    forall u | u in us && u.isSuperuser
      ensures u.id !in SalesRepIds(us)
    {
      if u.id in SalesRepIds(us) {
        var v :| v in us && !v.isSuperuser && v.id == u.id;
      }
    }
  }

  /** Step 4: every non-superuser account, one at a time. */
  function DeleteSalesReps(s: Store): (r: Result<Store, DeleteError>)
    ensures r.Failure? <==> exists c :: c in s.customers && c.salesRepId in SalesRepIds(s.users)
    ensures r.Success? ==> r.value.companies == s.companies && r.value.customers == s.customers
                           && r.value.interactions == s.interactions
    ensures r.Success? ==> forall u :: u in r.value.users <==> u in s.users && u.id !in SalesRepIds(s.users)
    ensures r.Success? && UserRowsValid(s.users) ==> UserRowsValid(r.value.users)
    ensures r.Success? && Valid(s) ==> Valid(r.value)
  {
    SalesRepIdsOfFilter(s.users);
    DeleteUsersInTurn(s, Filter(s.users, IsSalesRep))
  }

  /** `_clear_all_data`: the four steps in dependency order, as one
      transaction, so a refused step returns the error and no store. In this
      order no step is ever refused. */
  function ClearAllData(s: Store): (r: Result<Store, DeleteError>)
    ensures r.Success?
    ensures r.value.interactions == [] && r.value.customers == [] && r.value.companies == []
    ensures forall u :: u in r.value.users ==> u in s.users && u.isSuperuser
    ensures UserRowsValid(s.users) ==> forall u :: u in r.value.users <==> u in s.users && u.isSuperuser
    ensures UserRowsValid(s.users) ==> UserRowsValid(r.value.users)
    ensures Valid(s) ==> Valid(r.value)
  {
    var s2 := DeleteInteractionsAndCustomers(s);
    match DeleteAllCompanies(s2)
    case Failure(e) => Failure(e)
    case Success(s3) =>
      var r := DeleteSalesReps(s3);
      if UserRowsValid(s.users) then
        OutsideSalesRepIdsAreSuperusers(s.users);
        r
      else
        r
  }

  /** A store with no CRM data left: only superuser accounts remain. */
  predicate Cleared(s: Store) {
    s.interactions == [] && s.customers == [] && s.companies == []
    && forall u :: u in s.users ==> u.isSuperuser
  }

  /** Clearing a store that holds no CRM data skips every step and changes
      nothing, so clearing twice is clearing once. */
  lemma ClearIdempotent(s: Store)
    ensures Cleared(s) ==> ClearAllData(s) == Success(s)
    ensures ClearAllData(ClearAllData(s).value) == ClearAllData(s)
  {
  }

  /** The outcome of the command. */
  datatype Outcome = Cancelled | Completed | Aborted(error: DeleteError)

  /** `handle`: without `--force` the command goes on only for a confirming
      answer; a refused delete rolls the whole transaction back. Returns the
      store after the command and its outcome. */
  function Handle(s: Store, force: bool, answer: string): (r: (Store, Outcome))
    ensures !force && !Confirmed(answer) ==> r == (s, Cancelled)
    ensures force || Confirmed(answer) ==> r.1 == Completed && Cleared(r.0)
    ensures r.1.Aborted? ==> r.0 == s
  {
    if !force && !Confirmed(answer) then (s, Cancelled)
    else
      match ClearAllData(s)
      case Failure(e) => (s, Aborted(e))
      case Success(s') => (s', Completed)
  }

  /** The record counts the command shows before and after clearing. */
  datatype Counts = Counts(interactions: nat, customers: nat, companies: nat, salesReps: nat, superusers: nat)

  function CountsOf(s: Store): Counts {
    Counts(|s.interactions|, |s.customers|, |s.companies|, Count(s.users, IsSalesRep), Count(s.users, IsSuperuser))
  }

  /** The "total to delete" of `_show_current_stats`. */
  function TotalToDelete(c: Counts): nat {
    c.interactions + c.customers + c.companies + c.salesReps
  }

  /** Every row of the four tables, superusers included. */
  function RecordCount(s: Store): nat {
    |s.users| + |s.companies| + |s.customers| + |s.interactions|
  }

  /** The announced total is exactly the number of rows the clearing
      removes, and the superuser count is the same before and after. */
  lemma TotalToDeleteIsRemoved(s: Store)
    requires UserRowsValid(s.users)
    ensures RecordCount(s) - RecordCount(ClearAllData(s).value) == TotalToDelete(CountsOf(s))
    ensures CountsOf(ClearAllData(s).value).superusers == CountsOf(s).superusers
  {
    var t := ClearAllData(s).value;
    SameElementsSameLength(t.users, Filter(s.users, IsSuperuser));
    CountSplit(s.users, IsSuperuser, IsSalesRep);
    FilterKeepsAll(t.users, IsSuperuser);
  }

  /** What `_verify_cleanup` reports. */
  datatype CleanupReport = CleanupReport(remaining: Counts, totalRemaining: nat, perfect: bool)

  function VerifyCleanup(s: Store): (r: CleanupReport)
    ensures r.perfect <==> |s.interactions| == 0 && |s.customers| == 0 && |s.companies| == 0
                           && forall u :: u in s.users ==> u.isSuperuser
    ensures r.remaining.superusers == Count(s.users, IsSuperuser)
  {
    var c := CountsOf(s);
    var total := TotalToDelete(c);
    assert c.salesReps == 0 <==> forall u :: u in s.users ==> u.isSuperuser by {
      var reps := Filter(s.users, IsSalesRep);
      if |reps| > 0 {
        assert reps[0] in reps;
      }
    }
    CleanupReport(c, total, total == 0)
  }

  /** After `_clear_all_data` the cleanup check always reports a perfect
      clean with the superusers kept. */
  lemma ClearThenVerifyIsPerfect(s: Store)
    requires UserRowsValid(s.users)
    ensures VerifyCleanup(ClearAllData(s).value).perfect
    ensures VerifyCleanup(ClearAllData(s).value).remaining.superusers == Count(s.users, IsSuperuser)
  {
    TotalToDeleteIsRemoved(s);
  }

  /** The last step of `_clear_existing_data`: the non-superuser accounts in
      one bulk delete, when there is one. */
  function BulkDeleteSalesReps(s: Store): (r: Result<Store, DeleteError>)
    ensures r.Failure? <==> exists c :: c in s.customers && c.salesRepId in SalesRepIds(s.users)
    ensures r.Success? ==> r.value.companies == s.companies && r.value.customers == s.customers
                           && r.value.interactions == s.interactions
    ensures r.Success? ==> forall u :: u in r.value.users <==> u in s.users && u.id !in SalesRepIds(s.users)
  {
    if |Filter(s.users, IsSalesRep)| > 0 then
      DeleteUsers(s, SalesRepIds(s.users))
    else
      assert SalesRepIds(s.users) == {} by { SalesRepIdsOfFilter(s.users); }
      Success(s)
  }

  /** `_clear_existing_data` of the populate command: the same order, with
      the row counts taken up front (the earlier steps do not change the
      later counts) and the accounts gone in one bulk delete. */
  function ClearExistingData(s: Store): (r: Result<Store, DeleteError>)
    ensures r.Success?
    ensures r.value.interactions == [] && r.value.customers == [] && r.value.companies == []
    ensures forall u :: u in r.value.users <==> u in s.users && u.id !in SalesRepIds(s.users)
  {
    var s2 := DeleteInteractionsAndCustomers(s);
    match DeleteAllCompanies(s2)
    case Failure(e) => Failure(e)
    case Success(s3) => BulkDeleteSalesReps(s3)
  }

  /** Deleting the accounts one by one and in bulk leave the same rows. */
  lemma ClearExistingMatchesClearAll(s: Store)
    ensures ClearExistingData(s).Success? && ClearAllData(s).Success?
    ensures ClearExistingData(s).value.companies == ClearAllData(s).value.companies
    ensures ClearExistingData(s).value.customers == ClearAllData(s).value.customers
    ensures ClearExistingData(s).value.interactions == ClearAllData(s).value.interactions
    ensures forall u :: u in ClearExistingData(s).value.users <==> u in ClearAllData(s).value.users
  {
  }
}

=== FILE: models.dfy ===
/** The CRM's records (crm_app/models.py): companies, customers, their logged
    interactions and the framework's user accounts (the sales
    representatives), held in a store of four tables, together with the
    delete rules the foreign keys declare: PROTECT from a customer to its
    company and to its sales representative, CASCADE from an interaction to
    its customer.

    Timestamps (`created_at`, `interaction_date`, ...) are integer seconds;
    calendar dates (`birth_date`) are integer days. */
module Models {
  import opened Wrappers
  import opened Seqs

  // Time units, in seconds.
  const Minute: int := 60
  const Hour: int := 3600
  const Day: int := 86400

  // Column widths declared on the models.
  const MaxCompanyNameLength: nat := 200
  const MaxPersonNameLength: nat := 100
  const MaxTypeLength: nat := 20

  /** The interaction types a row may hold. */
  datatype InteractionType = Call | Email | SMS | Facebook | WhatsApp | Meeting | Other

  /** The choices in their declared order. */
  const InteractionTypeChoices: seq<InteractionType> := [Call, Email, SMS, Facebook, WhatsApp, Meeting, Other]

  /** The value stored in the `interaction_type` column. */
  function TypeLabel(t: InteractionType): string {
    match t
    case Call => "Call"
    case Email => "Email"
    case SMS => "SMS"
    case Facebook => "Facebook"
    case WhatsApp => "WhatsApp"
    case Meeting => "Meeting"
    case Other => "Other"
  }

  /** Reads a stored `interaction_type` value back; anything but one of the
      seven labels is not a valid choice. */
  function ParseType(s: string): (r: Option<InteractionType>)
    ensures forall t :: r == Some(t) <==> s == TypeLabel(t)
    ensures r.Some? ==> 0 < |s| <= MaxTypeLength && r.value in InteractionTypeChoices
  {
    if s == "Call" then Some(Call)
    else if s == "Email" then Some(Email)
    else if s == "SMS" then Some(SMS)
    else if s == "Facebook" then Some(Facebook)
    else if s == "WhatsApp" then Some(WhatsApp)
    else if s == "Meeting" then Some(Meeting)
    else if s == "Other" then Some(Other)
    else None
  }

  /** An account of the framework's user table; the non-superusers are the
      sales representatives. */
  datatype User = User(id: nat, username: string, firstName: string, lastName: string, isSuperuser: bool)

  datatype Company = Company(
    id: nat,
    name: string,
    isActive: bool,
    createdAt: int,
    updatedAt: int,
    deletedAt: Option<int>)

  datatype Customer = Customer(
    id: nat,
    firstName: string,
    lastName: string,
    birthDate: Option<int>,
    companyId: nat,
    salesRepId: nat,
    isActive: bool,
    createdAt: int,
    updatedAt: int,
    deletedAt: Option<int>)

  datatype Interaction = Interaction(
    id: nat,
    customerId: nat,
    kind: InteractionType,
    date: int,
    isActive: bool,
    createdAt: int,
    updatedAt: int,
    deletedAt: Option<int>)

  /** The interaction belongs to the customer with id `customerId`. */
  predicate OfCustomer(x: Interaction, customerId: nat) {
    x.customerId == customerId
  }

  predicate IsSuperuser(u: User) {
    u.isSuperuser
  }

  /** The sales representatives are the accounts that are not superusers. */
  predicate IsSalesRep(u: User) {
    !u.isSuperuser
  }

  /** The four tables. */
  datatype Store = Store(
    users: seq<User>,
    companies: seq<Company>,
    customers: seq<Customer>,
    interactions: seq<Interaction>)

  /** How many of `cs` have the account `id` as sales representative. */
  function RepCount(cs: seq<Customer>, id: nat): nat {
    if |cs| == 0 then 0
    else RepCount(cs[..|cs| - 1], id) + (if cs[|cs| - 1].salesRepId == id then 1 else 0)
  }

  /** `get_full_name`: first name, one space, last name. */
  function FullName(c: Customer): (r: string)
    ensures |r| == |c.firstName| + 1 + |c.lastName|
    ensures r[..|c.firstName|] == c.firstName
    ensures r[|c.firstName|] == ' '
    ensures r[|c.firstName| + 1..] == c.lastName
  {
    c.firstName + " " + c.lastName
  }

  /** Splits a text at its first space (the whole text is the first part
      when it has none). */
  function SplitAtSpace(s: string): (string, string) {
    if |s| == 0 then ("", "")
    else if s[0] == ' ' then ("", s[1..])
    else
      var (first, rest) := SplitAtSpace(s[1..]);
      ([s[0]] + first, rest)
  }

  lemma {:induction false} SplitAtSpaceJoin(first: string, last: string)
    requires ' ' !in first
    ensures SplitAtSpace(first + " " + last) == (first, last)
  {
    var s := first + " " + last;
    if |first| > 0 {
      assert s[1..] == first[1..] + " " + last;
      SplitAtSpaceJoin(first[1..], last);
      assert first == [first[0]] + first[1..];
    } else {
      assert s == " " + last;
    }
  }

  /** A full name gives back its two parts when the first name has no space. */
  lemma FullNameRoundTrip(c: Customer)
    requires ' ' !in c.firstName
    ensures SplitAtSpace(FullName(c)) == (c.firstName, c.lastName)
  {
    SplitAtSpaceJoin(c.firstName, c.lastName);
  }

  /** Two rows of `xs` with the same key are the same row: a primary key or a
      unique column. */
  predicate KeyUnique<T(==,!new), K(==)>(xs: seq<T>, key: T -> K) {
    forall a, b :: a in xs && b in xs && key(a) == key(b) ==> a == b
  }

  predicate HasUser(s: Store, id: nat) {
    exists u :: u in s.users && u.id == id
  }

  predicate HasCompany(s: Store, id: nat) {
    exists co :: co in s.companies && co.id == id
  }

  predicate HasCustomer(s: Store, id: nat) {
    exists c :: c in s.customers && c.id == id
  }

  predicate UserRowsValid(us: seq<User>) {
    && Distinct(us)
    && KeyUnique(us, (u: User) => u.id)
    && KeyUnique(us, (u: User) => u.username)
  }

  predicate CompanyRowsValid(cs: seq<Company>) {
    && Distinct(cs)
    && KeyUnique(cs, (co: Company) => co.id)
    && KeyUnique(cs, (co: Company) => co.name)
    && (forall co :: co in cs ==> |co.name| <= MaxCompanyNameLength)
  }

  predicate CustomerRowsValid(cs: seq<Customer>) {
    && Distinct(cs)
    && KeyUnique(cs, (c: Customer) => c.id)
    && (forall c :: c in cs ==> |c.firstName| <= MaxPersonNameLength && |c.lastName| <= MaxPersonNameLength)
  }

  predicate InteractionRowsValid(xs: seq<Interaction>) {
    && Distinct(xs)
    && KeyUnique(xs, (x: Interaction) => x.id)
  }

  /** Every customer's company and sales representative exist. */
  predicate CustomerRefsValid(s: Store) {
    forall c :: c in s.customers ==> HasCompany(s, c.companyId) && HasUser(s, c.salesRepId)
  }

  /** Every interaction's customer exists. */
  predicate InteractionRefsValid(s: Store) {
    forall x :: x in s.interactions ==> HasCustomer(s, x.customerId)
  }

  /** What the database guarantees of every state: no duplicated row, unique
      primary keys, unique usernames and company names, the declared column
      widths, and foreign keys that resolve. */
  predicate Valid(s: Store) {
    && UserRowsValid(s.users)
    && CompanyRowsValid(s.companies)
    && CustomerRowsValid(s.customers)
    && InteractionRowsValid(s.interactions)
    && CustomerRefsValid(s)
    && InteractionRefsValid(s)
  }

  lemma KeyUniqueFilter<T(!new), K>(xs: seq<T>, p: T -> bool, key: T -> K)
    requires KeyUnique(xs, key)
    ensures KeyUnique(Filter(xs, p), key)
  {
  }

  lemma UserRowsFilter(us: seq<User>, p: User -> bool)
    requires UserRowsValid(us)
    ensures UserRowsValid(Filter(us, p))
  {
    KeyUniqueFilter(us, p, (u: User) => u.id);
    KeyUniqueFilter(us, p, (u: User) => u.username);
  }

  lemma CompanyRowsFilter(cs: seq<Company>, p: Company -> bool)
    requires CompanyRowsValid(cs)
    ensures CompanyRowsValid(Filter(cs, p))
  {
    KeyUniqueFilter(cs, p, (co: Company) => co.id);
    KeyUniqueFilter(cs, p, (co: Company) => co.name);
  }

  lemma CustomerRowsFilter(cs: seq<Customer>, p: Customer -> bool)
    requires CustomerRowsValid(cs)
    ensures CustomerRowsValid(Filter(cs, p))
  {
    KeyUniqueFilter(cs, p, (c: Customer) => c.id);
  }

  lemma InteractionRowsFilter(xs: seq<Interaction>, p: Interaction -> bool)
    requires InteractionRowsValid(xs)
    ensures InteractionRowsValid(Filter(xs, p))
  {
    KeyUniqueFilter(xs, p, (x: Interaction) => x.id);
  }

  /** A refused delete: `ProtectedError`, with the number of customers that
      still reference the rows being deleted. */
  datatype DeleteError = ProtectedError(referencingCustomers: nat)

  /** Deletes the companies whose id is in `ids`; refused while any customer
      references one of them. */
  function DeleteCompanies(s: Store, ids: set<nat>): (r: Result<Store, DeleteError>)
    ensures r.Failure? <==> exists c :: c in s.customers && c.companyId in ids
    ensures r.Failure? ==> r.error.referencingCustomers > 0
    ensures r.Success? ==> r.value.users == s.users && r.value.customers == s.customers
                           && r.value.interactions == s.interactions
    ensures r.Success? ==> forall co :: co in r.value.companies <==> co in s.companies && co.id !in ids
    ensures r.Success? && Valid(s) ==> Valid(r.value)
  {
    var blocking := Filter(s.customers, (c: Customer) => c.companyId in ids);
    if |blocking| > 0 then
      Failure(ProtectedError(|blocking|))
    else
      var p := (co: Company) => co.id !in ids;
      var r := s.(companies := Filter(s.companies, p));
      assert Valid(s) ==> Valid(r) by {
        if Valid(s) {
          CompanyRowsFilter(s.companies, p);
          forall c | c in r.customers
            ensures HasCompany(r, c.companyId)
          {
            var co :| co in s.companies && co.id == c.companyId;
            assert c !in blocking;
            assert co in r.companies;
          }
        }
      }
      Success(r)
  }

  /** Deleting one company (`Company.delete()`). */
  function DeleteCompany(s: Store, id: nat): (r: Result<Store, DeleteError>)
    ensures r.Failure? <==> exists c :: c in s.customers && c.companyId == id
    ensures r.Success? ==> r.value.users == s.users && r.value.customers == s.customers
                           && r.value.interactions == s.interactions
    ensures r.Success? ==> forall co :: co in r.value.companies <==> co in s.companies && co.id != id
    ensures r.Success? && Valid(s) ==> Valid(r.value) && !HasCompany(r.value, id)
  {
    DeleteCompanies(s, {id})
  }

  /** Deletes the user accounts whose id is in `ids`; refused while any
      customer has one of them as sales representative. */
  function DeleteUsers(s: Store, ids: set<nat>): (r: Result<Store, DeleteError>)
    ensures r.Failure? <==> exists c :: c in s.customers && c.salesRepId in ids
    ensures r.Failure? ==> r.error.referencingCustomers > 0
    ensures r.Success? ==> r.value.companies == s.companies && r.value.customers == s.customers
                           && r.value.interactions == s.interactions
    ensures r.Success? ==> forall u :: u in r.value.users <==> u in s.users && u.id !in ids
    ensures r.Success? && Valid(s) ==> Valid(r.value)
  {
    var blocking := Filter(s.customers, (c: Customer) => c.salesRepId in ids);
    if |blocking| > 0 then
      Failure(ProtectedError(|blocking|))
    else
      var p := (u: User) => u.id !in ids;
      var r := s.(users := Filter(s.users, p));
      assert Valid(s) ==> Valid(r) by {
        if Valid(s) {
          UserRowsFilter(s.users, p);
          forall c | c in r.customers
            ensures HasUser(r, c.salesRepId)
          {
            var u :| u in s.users && u.id == c.salesRepId;
            assert c !in blocking;
            assert u in r.users;
          }
        }
      }
      Success(r)
  }

  /** Deleting one user account (`User.delete()`). */
  function DeleteUser(s: Store, id: nat): (r: Result<Store, DeleteError>)
    ensures r.Failure? <==> exists c :: c in s.customers && c.salesRepId == id
    ensures r.Success? ==> r.value.companies == s.companies && r.value.customers == s.customers
                           && r.value.interactions == s.interactions
    ensures r.Success? ==> forall u :: u in r.value.users <==> u in s.users && u.id != id
    ensures r.Success? && Valid(s) ==> Valid(r.value) && !HasUser(r.value, id)
  {
    DeleteUsers(s, {id})
  }

  /** Deletes the customers whose id is in `ids`. Nothing protects a
      customer; their interactions go with them. */
  function DeleteCustomers(s: Store, ids: set<nat>): (r: Store)
    ensures r.users == s.users && r.companies == s.companies
    ensures forall c :: c in r.customers <==> c in s.customers && c.id !in ids
    ensures forall x :: x in r.interactions <==> x in s.interactions && x.customerId !in ids
    ensures Valid(s) ==> Valid(r)
  {
    var p := (c: Customer) => c.id !in ids;
    var q := (x: Interaction) => x.customerId !in ids;
    var r := s.(customers := Filter(s.customers, p), interactions := Filter(s.interactions, q));
    assert Valid(s) ==> Valid(r) by {
      if Valid(s) {
        CustomerRowsFilter(s.customers, p);
        InteractionRowsFilter(s.interactions, q);
        forall x | x in r.interactions
          ensures HasCustomer(r, x.customerId)
        {
          var c :| c in s.customers && c.id == x.customerId;
          assert c in r.customers;
        }
      }
    }
    r
  }

  /** Deleting one customer (`Customer.delete()`): removes exactly that
      customer and the interactions that reference it. */
  function DeleteCustomer(s: Store, id: nat): (r: Store)
    ensures r.users == s.users && r.companies == s.companies
    ensures forall c :: c in r.customers <==> c in s.customers && c.id != id
    ensures forall x :: x in r.interactions <==> x in s.interactions && x.customerId != id
    ensures Valid(s) ==> Valid(r) && !HasCustomer(r, id)
  {
    DeleteCustomers(s, {id})
  }

  /** Deleting every interaction; nothing references an interaction. */
  function DeleteAllInteractions(s: Store): (r: Store)
    ensures r.interactions == [] && r.users == s.users
    ensures r.companies == s.companies && r.customers == s.customers
    ensures Valid(s) ==> Valid(r)
  {
    s.(interactions := [])
  }
}

=== FILE: populate.dfy ===
/** The `populate_data` command (crm_app/management/commands/populate_data.py):
    three sales representatives, companies with unique names, customers
    assigned to the representatives in turn, and for every customer a number
    of interactions dated between its creation and one hour before now, then
    a repair pass over any interaction dated before its customer.

    Every random draw (and every Faker name) is a parameter, bounded by a
    `requires` clause to the range the generator draws from; the clock is the
    parameter `now`, in seconds, and "today" is the day it falls in. */
module Populate {
  import opened Wrappers
  import opened Seqs
  import opened Models

  /** What stops the generator before it writes anything. */
  datatype GenerateError =
    | NoSalesReps         // `customers_count // len(sales_reps_list)` with no representative
    | NoCompanies         // `random.choice` on an empty company list
    | NamesExhausted      // the name supply ran out before enough unique names were found
    | DuplicateCompany    // a new company name is already taken in the table

  /** The calendar day (UTC) that the instant `now` falls in. */
  function Today(now: int): int {
    now / Day
  }

  // ---------------------------------------------------------------------
  // Sales representatives
  // ---------------------------------------------------------------------

  datatype RepProfile = RepProfile(username: string, firstName: string, lastName: string)

  /** The three representatives the command makes sure exist. */
  const RepProfiles: seq<RepProfile> := [
    RepProfile("maria_garcia", "María", "García"),
    RepProfile("carlos_rodriguez", "Carlos", "Rodríguez"),
    RepProfile("ana_martinez", "Ana", "Martínez")
  ]

  predicate HasUsername(us: seq<User>, name: string) {
    exists u :: u in us && u.username == name
  }

  /** Every id in `us` is below `id`: the next id the table hands out. */
  predicate IdsBelow(us: seq<User>, id: nat) {
    forall u :: u in us ==> u.id < id
  }

  /** Creates the accounts of `ps` whose username is not taken yet, giving
      them the ids `nextId`, `nextId + 1`, ... in turn. */
  function AddSalesReps(us: seq<User>, ps: seq<RepProfile>, nextId: nat): (r: seq<User>)
    decreases |ps|
    ensures forall u :: u in us ==> u in r
    ensures forall p :: p in ps ==> HasUsername(r, p.username)
    ensures forall u :: u in r && u !in us ==> !u.isSuperuser && u.id >= nextId
                                               && exists p :: p in ps && u.username == p.username
    ensures UserRowsValid(us) && IdsBelow(us, nextId) ==> UserRowsValid(r)
  {
    if |ps| == 0 then us
    else
      var p := ps[0];
      assert forall q :: q in ps ==> q == p || q in ps[1..];
      if HasUsername(us, p.username) then
        AddSalesReps(us, ps[1..], nextId)
      else
        var u := User(nextId, p.username, p.firstName, p.lastName, false);
        var us' := us + [u];
        assert UserRowsValid(us) && IdsBelow(us, nextId) ==> UserRowsValid(us') && IdsBelow(us', nextId + 1) by {
          if UserRowsValid(us) && IdsBelow(us, nextId) {
            assert forall v :: v in us' ==> v in us || v == u;
          }
        }
        AddSalesReps(us', ps[1..], nextId + 1)
  }

  /** `_create_sales_representatives`: afterwards every profile's username
      exists, no account was removed, and the new accounts are sales
      representatives. */
  function CreateSalesReps(s: Store, nextId: nat): (r: Store)
    ensures r.companies == s.companies && r.customers == s.customers && r.interactions == s.interactions
    ensures forall p :: p in RepProfiles ==> HasUsername(r.users, p.username)
    ensures forall u :: u in s.users ==> u in r.users
    ensures forall u :: u in r.users && u !in s.users ==> !u.isSuperuser
    ensures Valid(s) && IdsBelow(s.users, nextId) ==> Valid(r)
  {
    var r := s.(users := AddSalesReps(s.users, RepProfiles, nextId));
    assert Valid(s) ==> CustomerRefsValid(r) by {
      if Valid(s) {
        forall c | c in r.customers
          ensures HasUser(r, c.salesRepId)
        {
          var u :| u in s.users && u.id == c.salesRepId;
          assert u in r.users;
        }
      }
    }
    r
  }

  // ---------------------------------------------------------------------
  // Company names
  // ---------------------------------------------------------------------

  /** The suffixes one candidate in two receives. */
  const CompanySuffixes: seq<string> := ["S.A.", "S.L.", "Group", "Corp", "Solutions", "Systems"]

  /** One draw of the name loop: Faker's company name, and the suffix drawn
      when the coin came up heads. */
  datatype NameDraw = NameDraw(base: string, suffix: Option<nat>)

  predicate NameDrawInRange(d: NameDraw) {
    d.suffix.Some? ==> d.suffix.value < |CompanySuffixes|
  }

  function CandidateName(d: NameDraw): (r: string)
    requires NameDrawInRange(d)
    ensures d.suffix.None? ==> r == d.base
    ensures d.suffix.Some? ==>
      |r| > |d.base| && r[..|d.base|] == d.base && r[|d.base|] == ' ' && r[|d.base| + 1..] in CompanySuffixes
  {
    match d.suffix
    case None => d.base
    case Some(k) => d.base + " " + CompanySuffixes[k]
  }

  function Candidates(ds: seq<NameDraw>): (r: seq<string>)
    requires forall i :: 0 <= i < |ds| ==> NameDrawInRange(ds[i])
    ensures |r| == |ds|
    ensures forall i :: 0 <= i < |ds| ==> r[i] == CandidateName(ds[i])
  {
    seq(|ds|, i requires 0 <= i < |ds| => CandidateName(ds[i]))
  }

  /** The names the loop accepts from a stream of candidates when it never
      stops early: a candidate is kept when it is not among the names kept
      so far and has at most 200 characters. */
  function AcceptNames(cands: seq<string>): (r: seq<string>)
    ensures |r| <= |cands|
    ensures Distinct(r)
    ensures forall n :: n in r <==> n in cands && |n| <= MaxCompanyNameLength
  {
    if |cands| == 0 then []
    else
      var init := cands[..|cands| - 1];
      var c := cands[|cands| - 1];
      assert cands == init + [c];
      var prev := AcceptNames(init);
      if c !in prev && |c| <= MaxCompanyNameLength then prev + [c] else prev
  }

  /** One more candidate: kept exactly when it is new and short enough. */
  lemma AcceptNamesStep(cands: seq<string>, i: nat)
    requires i < |cands|
    ensures AcceptNames(cands[..i + 1])
            == if cands[i] !in AcceptNames(cands[..i]) && |cands[i]| <= MaxCompanyNameLength
               then AcceptNames(cands[..i]) + [cands[i]]
               else AcceptNames(cands[..i])
  {
    assert cands[..i + 1][..i] == cands[..i];
  }

  lemma PrefixWellFormed(a: seq<string>, p: seq<string>)
    requires WellFormedNames(a) && p <= a
    ensures WellFormedNames(p)
  {
    assert forall n :: n in p ==> n in a;
  }

  /** The names accepted from the first `i` candidates begin the names
      accepted from all of them. */
  lemma {:induction false} AcceptedSoFar(cands: seq<string>, i: nat)
    requires i <= |cands|
    ensures AcceptNames(cands[..i]) <= AcceptNames(cands)
    decreases |cands|
  {
    if i < |cands| {
      var init := cands[..|cands| - 1];
      AcceptedSoFar(init, i);
      assert init[..i] == cands[..i];
    } else {
      assert cands[..i] == cands;
    }
  }

  /** `_create_companies`' name loop over a stream of candidates: reads
      candidates until `count` names are accepted. The source draws without
      end; here the stream is finite, and running out of it is an error. */
  method AcceptUntil(cands: seq<string>, count: int) returns (r: Result<seq<string>, GenerateError>)
    ensures r.Success? <==> |AcceptNames(cands)| >= count
    ensures r.Failure? ==> r.error == NamesExhausted
    ensures r.Success? ==> |r.value| == (if count < 0 then 0 else count)
    ensures r.Success? ==> r.value <= AcceptNames(cands)
    ensures r.Success? ==> WellFormedNames(r.value)
  {
    var names: seq<string> := [];
    var i := 0;
    while |names| < count && i < |cands|
      invariant 0 <= i <= |cands|
      invariant names == AcceptNames(cands[..i])
      invariant |names| <= (if count < 0 then 0 else count)
    {
      AcceptNamesStep(cands, i);
      if cands[i] !in names && |cands[i]| <= MaxCompanyNameLength {
        names := names + [cands[i]];
      }
      i := i + 1;
    }
    AcceptedSoFar(cands, i);
    if |names| >= count {
      PrefixWellFormed(AcceptNames(cands), names);
      r := Success(names);
    } else {
      assert cands[..i] == cands;
      r := Failure(NamesExhausted);
    }
  }

  /** `_create_companies`' name loop on the draws: each draw's name, with its
      suffix when it has one, is offered in turn. */
  method CreateCompanyNames(ds: seq<NameDraw>, count: int) returns (r: Result<seq<string>, GenerateError>)
    requires forall i :: 0 <= i < |ds| ==> NameDrawInRange(ds[i])
    ensures r.Success? <==> |AcceptNames(Candidates(ds))| >= count
    ensures r.Success? ==> |r.value| == (if count < 0 then 0 else count)
    ensures r.Success? ==> r.value <= AcceptNames(Candidates(ds))
    ensures r.Success? ==> WellFormedNames(r.value)
  {
    r := AcceptUntil(Candidates(ds), count);
  }

  /** No name of `names` is already a company's name. */
  predicate NamesFree(cs: seq<Company>, names: seq<string>) {
    forall co, n :: co in cs && n in names ==> co.name != n
  }

  /** Every id in `cs` is below `id`. */
  predicate CompanyIdsBelow(cs: seq<Company>, id: nat) {
    forall co :: co in cs ==> co.id < id
  }

  /** Every name fits the 200-character column. */
  predicate NamesFitColumn(names: seq<string>) {
    forall n :: n in names ==> |n| <= MaxCompanyNameLength
  }

  /** Names the loop can produce: pairwise distinct and within the column width. */
  predicate WellFormedNames(names: seq<string>) {
    Distinct(names) && NamesFitColumn(names)
  }

  /** The bulk insert of the accepted names: active companies created now,
      with the ids `firstId`, `firstId + 1`, ... A name already in the table,
      or a name given twice, violates the unique constraint and the whole
      insert is rolled back. */
  function InsertCompanies(s: Store, names: seq<string>, now: int, firstId: nat): (r: Result<Store, GenerateError>)
    ensures r.Failure? <==> !NamesFree(s.companies, names) || !Distinct(names)
    ensures r.Success? ==> r.value.users == s.users && r.value.customers == s.customers
                           && r.value.interactions == s.interactions
    ensures r.Success? ==> |r.value.companies| == |s.companies| + |names|
                           && r.value.companies[..|s.companies|] == s.companies
    ensures r.Success? ==>
      forall i :: 0 <= i < |names| ==>
        r.value.companies[|s.companies| + i].name == names[i] && r.value.companies[|s.companies| + i].isActive
    ensures r.Success? && Valid(s) && CompanyIdsBelow(s.companies, firstId) && NamesFitColumn(names) ==> Valid(r.value)
  {
    if !NamesFree(s.companies, names) || !Distinct(names) then Failure(DuplicateCompany)
    else
      var added := seq(|names|, i requires 0 <= i < |names| => Company(firstId + i, names[i], true, now, now, None));
      var r := s.(companies := s.companies + added);
      assert r.companies[..|s.companies|] == s.companies;
      assert Valid(s) && CompanyIdsBelow(s.companies, firstId) && NamesFitColumn(names) ==> Valid(r) by {
        if Valid(s) && CompanyIdsBelow(s.companies, firstId) && NamesFitColumn(names) {
          InsertedCompaniesValid(s.companies, added, names, firstId);
          forall c | c in r.customers
            ensures HasCompany(r, c.companyId)
          {
            var co :| co in s.companies && co.id == c.companyId;
            assert co in r.companies;
          }
        }
      }
      Success(r)
  }

  /** The rows the bulk insert adds for `names`. */
  predicate AddedRows(added: seq<Company>, names: seq<string>, firstId: nat) {
    |added| == |names| && forall i :: 0 <= i < |names| ==> added[i].id == firstId + i && added[i].name == names[i]
  }

  lemma AddedIdsUnique(cs: seq<Company>, added: seq<Company>, names: seq<string>, firstId: nat)
    requires KeyUnique(cs, (co: Company) => co.id) && CompanyIdsBelow(cs, firstId)
    requires AddedRows(added, names, firstId)
    ensures KeyUnique(cs + added, (co: Company) => co.id)
  {
    forall a, b | a in cs + added && b in cs + added && a.id == b.id
      ensures a == b
    {
      if a in added && b in added {
        var i :| 0 <= i < |added| && added[i] == a;
        var j :| 0 <= j < |added| && added[j] == b;
      }
    }
  }

  lemma AddedNamesUnique(cs: seq<Company>, added: seq<Company>, names: seq<string>, firstId: nat)
    requires KeyUnique(cs, (co: Company) => co.name) && NamesFree(cs, names) && Distinct(names)
    requires AddedRows(added, names, firstId)
    ensures KeyUnique(cs + added, (co: Company) => co.name)
  {
    forall a | a in added
      ensures a.name in names
    {
      var i :| 0 <= i < |added| && added[i] == a;
    }
    forall a, b | a in cs + added && b in cs + added && a.name == b.name
      ensures a == b
    {
      if a in added && b in added {
        var i :| 0 <= i < |added| && added[i] == a;
        var j :| 0 <= j < |added| && added[j] == b;
        assert names[i] == names[j];
      }
    }
  }

  lemma AddedRowsDistinct(cs: seq<Company>, added: seq<Company>, names: seq<string>, firstId: nat)
    requires Distinct(cs) && CompanyIdsBelow(cs, firstId)
    requires AddedRows(added, names, firstId)
    ensures Distinct(cs + added)
  {
    var all := cs + added;
    forall i, j | 0 <= i < j < |all|
      ensures all[i] != all[j]
    {
      if i >= |cs| {
        assert all[i] == added[i - |cs|] && all[j] == added[j - |cs|];
      } else if j >= |cs| {
        assert all[i] in cs && all[j] == added[j - |cs|];
      }
    }
  }

  lemma AddedRowsWidth(cs: seq<Company>, added: seq<Company>, names: seq<string>, firstId: nat)
    requires (forall co :: co in cs ==> |co.name| <= MaxCompanyNameLength) && WellFormedNames(names)
    requires AddedRows(added, names, firstId)
    ensures forall co :: co in cs + added ==> |co.name| <= MaxCompanyNameLength
  {
    forall co | co in cs + added
      ensures |co.name| <= MaxCompanyNameLength
    {
      if co in added {
        var i :| 0 <= i < |added| && added[i] == co;
        assert names[i] in names;
      }
    }
  }

  lemma InsertedCompaniesValid(cs: seq<Company>, added: seq<Company>, names: seq<string>, firstId: nat)
    requires CompanyRowsValid(cs) && CompanyIdsBelow(cs, firstId) && NamesFree(cs, names)
    requires WellFormedNames(names)
    requires AddedRows(added, names, firstId)
    ensures CompanyRowsValid(cs + added)
  {
    AddedIdsUnique(cs, added, names, firstId);
    AddedNamesUnique(cs, added, names, firstId);
    AddedRowsDistinct(cs, added, names, firstId);
    AddedRowsWidth(cs, added, names, firstId);
  }

  // ---------------------------------------------------------------------
  // Interaction types
  // ---------------------------------------------------------------------

  /** The generator's type weights, in percent, in the order the list is
      built; `int(w * 100)` of the source's fractions. */
  const TypeWeights: seq<(InteractionType, nat)> :=
    [(Call, 40), (Email, 30), (Meeting, 15), (SMS, 8), (WhatsApp, 5), (Facebook, 2)]

  function Repeat(t: InteractionType, n: nat): (r: seq<InteractionType>)
    ensures |r| == n
    ensures forall i :: 0 <= i < n ==> r[i] == t
  {
    seq(n, _ => t)
  }

  /** Each type repeated as often as its weight, in order. */
  function Expand(ws: seq<(InteractionType, nat)>): seq<InteractionType> {
    if |ws| == 0 then [] else Repeat(ws[0].0, ws[0].1) + Expand(ws[1..])
  }

  /** The total weight given to `t`. */
  function WeightOf(ws: seq<(InteractionType, nat)>, t: InteractionType): nat {
    if |ws| == 0 then 0 else (if ws[0].0 == t then ws[0].1 else 0) + WeightOf(ws[1..], t)
  }

  function TotalWeight(ws: seq<(InteractionType, nat)>): nat {
    if |ws| == 0 then 0 else ws[0].1 + TotalWeight(ws[1..])
  }

  lemma {:induction false} RepeatCount(t: InteractionType, n: nat, u: InteractionType)
    ensures multiset(Repeat(t, n))[u] == if u == t then n else 0
  {
    if n > 0 {
      RepeatCount(t, n - 1, u);
      assert Repeat(t, n) == Repeat(t, n - 1) + [t];
    }
  }

  /** The expanded list holds each type exactly as often as its weight. */
  lemma {:induction false} ExpandCount(ws: seq<(InteractionType, nat)>, t: InteractionType)
    ensures multiset(Expand(ws))[t] == WeightOf(ws, t)
    ensures |Expand(ws)| == TotalWeight(ws)
  {
    if |ws| > 0 {
      RepeatCount(ws[0].0, ws[0].1, t);
      ExpandCount(ws[1..], t);
    }
  }

  /** `weighted_types`: the list `random.choice` draws a type from. */
  const WeightedTypes: seq<InteractionType> := Expand(TypeWeights)

  /** The share, in percent, the generator gives each type. */
  function Share(t: InteractionType): nat {
    match t
    case Call => 40
    case Email => 30
    case Meeting => 15
    case SMS => 8
    case WhatsApp => 5
    case Facebook => 2
    case Other => 0
  }

  lemma TypeShare(t: InteractionType)
    ensures multiset(WeightedTypes)[t] == Share(t)
  {
    ExpandCount(TypeWeights, t);
  }

  /** The list has 100 entries: 40 calls, 30 e-mails, 15 meetings, 8 SMS,
      5 WhatsApp and 2 Facebook messages, and never `Other`. */
  lemma WeightedTypesShares()
    ensures |WeightedTypes| == 100
    ensures forall t :: multiset(WeightedTypes)[t] == Share(t)
    ensures Other !in WeightedTypes
  {
    ExpandCount(TypeWeights, Other);
    forall t
      ensures multiset(WeightedTypes)[t] == Share(t)
    {
      TypeShare(t);
    }
    assert Other !in multiset(WeightedTypes);
  }

  /** `random.choice(weighted_types)` for the draw `k`. */
  function PickType(k: nat): (r: InteractionType)
    requires k < 100
    ensures r != Other && r in InteractionTypeChoices
  {
    WeightedTypesShares();
    assert WeightedTypes[k] in WeightedTypes;
    WeightedTypes[k]
  }

  // ---------------------------------------------------------------------
  // Interactions per customer
  // ---------------------------------------------------------------------

  /** The target number of interactions per customer. */
  function InteractionsPerCustomer(fast: bool): nat {
    if fast then 50 else 500
  }

  /** The bounds of the per-customer draw, `int(n * 0.8)` and `int(n * 1.2)`:
      exactly 4/5 and 6/5 of the target. */
  function CountBounds(fast: bool): (r: (nat, nat))
    ensures 5 * r.0 == 4 * InteractionsPerCustomer(fast) && 5 * r.1 == 6 * InteractionsPerCustomer(fast)
    ensures r.0 <= InteractionsPerCustomer(fast) <= r.1
  {
    if fast then (40, 60) else (400, 600)
  }

  // ---------------------------------------------------------------------
  // Interaction dates
  // ---------------------------------------------------------------------

  /** The interval interaction dates are drawn from. */
  datatype Window = Window(start: int, end: int)

  /** The window of one customer: from its creation to one hour before now,
      pushed back when the customer is newer than that. */
  function AdjustWindow(createdAt: int, now: int): (w: Window)
    ensures w.start < w.end <= now - Hour
    ensures createdAt < now - Hour ==> w == Window(createdAt, now - Hour)
    ensures createdAt >= now - Hour ==> w == Window(now - Hour - 7 * Day, now - Hour)
  {
    var end := now - Hour;
    if createdAt < end then Window(createdAt, end)
    else
      var end1 := createdAt + 30 * Day;
      if end1 > now - Hour then
        var end2 := now - Hour;
        if createdAt >= end2 then Window(end2 - 7 * Day, end2) else Window(createdAt, end2)
      else
        Window(createdAt, end1)
  }

  /** `max(1, (end_date - start_date).days)`: whole days in the window, at
      least one. */
  function DaysDiff(w: Window): (r: int)
    ensures r >= 1
    ensures w.end - w.start >= Day ==> r * Day <= w.end - w.start < (r + 1) * Day
  {
    var days := (w.end - w.start) / Day;
    if days < 1 then 1 else days
  }

  /** The random draws behind one interaction date. */
  datatype DateDraws = DateDraws(
    days: int,          // randint(0, days_diff)
    hours: int,         // randint(0, 23)
    minutes: int,       // randint(0, 59)
    daysBack: int,      // randint(1, 30), used when the date is too late
    hoursBack: int,     // randint(1, 23), likewise
    hoursAfter: int,    // randint(1, 72), used when the date is before the customer
    hoursBefore: int)   // randint(1, 24), used when that is too late again

  predicate DateDrawsInRange(d: DateDraws, daysDiff: int) {
    && 0 <= d.days <= daysDiff && 0 <= d.hours <= 23 && 0 <= d.minutes <= 59
    && 1 <= d.daysBack <= 30 && 1 <= d.hoursBack <= 23
    && 1 <= d.hoursAfter <= 72 && 1 <= d.hoursBefore <= 24
  }

  /** The draws fit the window of a customer created at `createdAt`. */
  predicate DrawsFit(d: DateDraws, createdAt: int, now: int) {
    DateDrawsInRange(d, DaysDiff(AdjustWindow(createdAt, now)))
  }

  /** The date of one interaction: a day, hour and minute into the window,
      moved back when it is not before `now - 1h`, moved after the customer's
      creation when it is before it, and moved back once more when that
      made it too late. */
  function InteractionDate(createdAt: int, now: int, d: DateDraws): (r: int)
    requires DrawsFit(d, createdAt, now)
    ensures r < now - Hour
    ensures r < createdAt ==> createdAt + d.hoursAfter * Hour >= now - Hour && r == now - Hour - d.hoursBefore * Hour
    ensures createdAt + 72 * Hour < now - Hour ==> createdAt <= r
  {
    var w := AdjustWindow(createdAt, now);
    var maxAllowed := now - Hour;
    var drawn := w.start + d.days * Day + d.hours * Hour + d.minutes * Minute;
    var notLate := if drawn >= maxAllowed then maxAllowed - (d.daysBack * Day + d.hoursBack * Hour) else drawn;
    if notLate < createdAt then
      var after := createdAt + d.hoursAfter * Hour;
      if after >= maxAllowed then maxAllowed - d.hoursBefore * Hour else after
    else
      notLate
  }

  // ---------------------------------------------------------------------
  // Customers
  // ---------------------------------------------------------------------

  /** The random draws behind one customer. */
  datatype CustomerDraw = CustomerDraw(
    companyIndex: nat,    // random.choice(self.companies)
    age: Option<int>,     // randint(18, 65) when random() > 0.1; no birth date otherwise
    daysAgo: int,         // randint(1, 730)
    firstName: string,    // Faker
    lastName: string,     // Faker
    isActive: bool)       // choice([True, True, True, False])

  predicate CustomerDrawInRange(d: CustomerDraw, companyCount: nat) {
    && (companyCount > 0 ==> d.companyIndex < companyCount)
    && (d.age.Some? ==> 18 <= d.age.value <= 65)
    && 1 <= d.daysAgo <= 730
  }

  /** What the generator promises of every customer it creates: an existing
      company, a creation date within the last 729 days, and, when there is
      a birth date, an age between 18 and 65 years of 365 days. */
  predicate GeneratedCustomer(c: Customer, companies: seq<Company>, now: int) {
    && (exists co :: co in companies && co.id == c.companyId)
    && now - 729 * Day <= c.createdAt <= now && c.updatedAt == c.createdAt
    && (c.birthDate.Some? ==> Today(now) - 65 * 365 <= c.birthDate.value <= Today(now) - 18 * 365)
  }

  /** Customer number `i`: representative `i mod k`, created `daysAgo` days
      after the base date two years back, born `age * 365` days before
      today. */
  function NewCustomer(i: nat, reps: seq<User>, companies: seq<Company>, now: int, firstId: nat, d: CustomerDraw): (c: Customer)
    requires |reps| > 0 && |companies| > 0 && CustomerDrawInRange(d, |companies|)
    ensures c.id == firstId + i && c.salesRepId == reps[i % |reps|].id
    ensures c.birthDate.Some? <==> d.age.Some?
    ensures GeneratedCustomer(c, companies, now)
  {
    var createdAt := now - 730 * Day + d.daysAgo * Day;
    var birth := match d.age
      case None => None
      case Some(a) => Some(Today(now) - a * 365);
    var co := companies[d.companyIndex];
    assert co in companies;
    Customer(firstId + i, d.firstName, d.lastName, birth, co.id, reps[i % |reps|].id, d.isActive, createdAt, createdAt, None)
  }

  /** `_create_customers`: one customer per draw, with the ids `firstId`,
      `firstId + 1`, ... Without representatives the source fails at once on
      the division by their number; without companies it fails on the
      first `random.choice`. */
  function CreateCustomers(reps: seq<User>, companies: seq<Company>, now: int, firstId: nat, ds: seq<CustomerDraw>)
    : (r: Result<seq<Customer>, GenerateError>)
    requires forall i :: 0 <= i < |ds| ==> CustomerDrawInRange(ds[i], |companies|)
    ensures r.Failure? <==> |reps| == 0 || (|companies| == 0 && |ds| > 0)
    ensures r.Failure? ==> (r.error == NoSalesReps <==> |reps| == 0)
    ensures r.Success? ==> |r.value| == |ds|
    ensures r.Success? ==>
      forall i :: 0 <= i < |ds| ==>
        && r.value[i].id == firstId + i
        && r.value[i].salesRepId == reps[i % |reps|].id
        && GeneratedCustomer(r.value[i], companies, now)
  {
    if |reps| == 0 then Failure(NoSalesReps)
    else if |ds| == 0 then Success([])
    else if |companies| == 0 then Failure(NoCompanies)
    else Success(seq(|ds|, i requires 0 <= i < |ds| => NewCustomer(i, reps, companies, now, firstId, ds[i])))
  }

  // ---------------------------------------------------------------------
  // Round-robin assignment
  // ---------------------------------------------------------------------

  /** How many of the customers `0 .. n-1` go to representative `j` of `k`
      under `i % k`. */
  function Load(n: nat, k: nat, j: nat): nat
    requires k > 0
  {
    if n == 0 then 0 else Load(n - 1, k, j) + (if (n - 1) % k == j then 1 else 0)
  }

  lemma {:induction false} MulAtLeast(d: int, k: int)
    requires d >= 1 && k > 0
    ensures d * k >= k
    decreases d
  {
    if d > 1 {
      MulAtLeast(d - 1, k);
      assert d * k == (d - 1) * k + k;
    }
  }

  lemma MulGap(x: int, y: int, k: int)
    requires k > 0
    ensures x < y ==> x * k + k <= y * k
  {
    if x < y {
      MulAtLeast(y - x, k);
      assert y * k - x * k == (y - x) * k;
    }
  }

  lemma DivModUnique(a: int, k: int, q: int, r: int)
    requires k > 0 && 0 <= r < k && a == q * k + r
    ensures a / k == q && a % k == r
  {
    MulGap(a / k, q, k);
    MulGap(q, a / k, k);
  }

  /** Customer `m + 1` moves to the next representative, wrapping at `k`. */
  lemma DivModNext(m: nat, k: nat)
    requires k > 0
    ensures m % k + 1 < k ==> (m + 1) / k == m / k && (m + 1) % k == m % k + 1
    ensures m % k + 1 == k ==> (m + 1) / k == m / k + 1 && (m + 1) % k == 0
  {
    var q := m / k;
    var r := m % k;
    if r + 1 < k {
      DivModUnique(m + 1, k, q, r + 1);
    } else {
      DivModUnique(m + 1, k, q + 1, 0);
    }
  }

  /** Representative `j` of `k` gets `n / k` customers, plus one when `j` is
      among the first `n % k`. */
  lemma {:induction false} LoadFormula(n: nat, k: nat, j: nat)
    requires 0 <= j < k
    ensures Load(n, k, j) == n / k + (if j < n % k then 1 else 0)
  {
    if n > 0 {
      var m := n - 1;
      LoadFormula(m, k, j);
      DivModNext(m, k);
      assert Load(n, k, j) == Load(m, k, j) + (if m % k == j then 1 else 0);
      if m % k + 1 < k {
        // same round: the remainder grows by one
        assert n / k == m / k && n % k == m % k + 1;
        assert (if j < m % k then 1 else 0) + (if m % k == j then 1 else 0) == (if j < n % k then 1 else 0);
      } else {
        // the round closes: every representative has had one more customer
        assert n / k == m / k + 1 && n % k == 0;
        assert (if j < m % k then 1 else 0) + (if m % k == j then 1 else 0) == 1;
      }
    }
  }

  /** Round-robin loads differ by at most one. */
  lemma LoadsBalanced(n: nat, k: nat, i: nat, j: nat)
    requires i < k && j < k
    ensures Load(n, k, i) <= Load(n, k, j) + 1
    ensures n / k <= Load(n, k, i) <= n / k + 1
  {
    LoadFormula(n, k, i);
    LoadFormula(n, k, j);
  }

  /** Representatives with pairwise distinct ids. */
  predicate DistinctIds(reps: seq<User>) {
    forall a, b :: 0 <= a < b < |reps| ==> reps[a].id != reps[b].id
  }

  /** Customers assigned in turn: customer `i` has representative `i % k`. */
  predicate AssignedInTurn(cs: seq<Customer>, reps: seq<User>) {
    |reps| > 0 && forall i :: 0 <= i < |cs| ==> cs[i].salesRepId == reps[i % |reps|].id
  }

  /** Under round-robin assignment, representative `j` has exactly
      `Load(n, k, j)` customers. */
  lemma {:induction false} RoundRobinCount(cs: seq<Customer>, reps: seq<User>, j: nat)
    requires AssignedInTurn(cs, reps) && DistinctIds(reps) && j < |reps|
    ensures RepCount(cs, reps[j].id) == Load(|cs|, |reps|, j)
  {
    if |cs| > 0 {
      var init := cs[..|cs| - 1];
      assert AssignedInTurn(init, reps);
      RoundRobinCount(init, reps, j);
      var m := |cs| - 1;
      assert cs[m].salesRepId == reps[m % |reps|].id;
      if m % |reps| != j {
        assert reps[m % |reps|].id != reps[j].id by {
          if m % |reps| < j {
            assert DistinctIds(reps);
          }
        }
      }
    }
  }

  /** The generated customers are spread evenly: every representative has
      `n / k` or `n / k + 1` of them. */
  lemma CreatedCustomersBalanced(reps: seq<User>, companies: seq<Company>, now: int, firstId: nat, ds: seq<CustomerDraw>, j: nat, l: nat)
    requires forall i :: 0 <= i < |ds| ==> CustomerDrawInRange(ds[i], |companies|)
    requires CreateCustomers(reps, companies, now, firstId, ds).Success?
    requires DistinctIds(reps) && j < |reps| && l < |reps|
    ensures |ds| / |reps| <= RepCount(CreateCustomers(reps, companies, now, firstId, ds).value, reps[j].id) <= |ds| / |reps| + 1
    ensures RepCount(CreateCustomers(reps, companies, now, firstId, ds).value, reps[j].id)
            <= RepCount(CreateCustomers(reps, companies, now, firstId, ds).value, reps[l].id) + 1
  {
    var cs := CreateCustomers(reps, companies, now, firstId, ds).value;
    assert AssignedInTurn(cs, reps);
    RoundRobinCount(cs, reps, j);
    RoundRobinCount(cs, reps, l);
    LoadsBalanced(|ds|, |reps|, j, l);
  }

  // ---------------------------------------------------------------------
  // Interactions
  // ---------------------------------------------------------------------

  /** The random draws behind one interaction. */
  datatype InteractionDraw = InteractionDraw(
    date: DateDraws,
    typeIndex: nat,     // random.choice(weighted_types)
    isActive: bool)     // choice([True, True, True, False])

  predicate InteractionDrawFits(d: InteractionDraw, c: Customer, now: int) {
    DrawsFit(d.date, c.createdAt, now) && d.typeIndex < 100
  }

  /** What the generator promises of every interaction of customer `c`. */
  predicate GeneratedInteraction(x: Interaction, c: Customer, now: int) {
    && x.customerId == c.id
    && x.date < now - Hour
    && (x.date < c.createdAt ==> c.createdAt + 72 * Hour >= now - Hour)
    && x.kind != Other
  }

  function NewInteraction(c: Customer, now: int, id: nat, d: InteractionDraw): (x: Interaction)
    requires InteractionDrawFits(d, c, now)
    ensures x.id == id && x.isActive == d.isActive
    ensures GeneratedInteraction(x, c, now)
  {
    Interaction(id, c.id, PickType(d.typeIndex), InteractionDate(c.createdAt, now, d.date), d.isActive, now, now, None)
  }

  /** The interactions of one customer, one per draw, with consecutive ids. */
  function InteractionsFor(c: Customer, now: int, firstId: nat, ds: seq<InteractionDraw>): (r: seq<Interaction>)
    requires forall i :: 0 <= i < |ds| ==> InteractionDrawFits(ds[i], c, now)
    ensures |r| == |ds|
    ensures forall i :: 0 <= i < |ds| ==> r[i].id == firstId + i && GeneratedInteraction(r[i], c, now)
  {
    seq(|ds|, i requires 0 <= i < |ds| => NewInteraction(c, now, firstId + i, ds[i]))
  }

  /** The draws for every customer: as many as the count draw says, each
      fitting its customer's window. */
  predicate InteractionDrawsFit(cs: seq<Customer>, now: int, fast: bool, dss: seq<seq<InteractionDraw>>) {
    && |dss| == |cs|
    && forall k :: 0 <= k < |cs| ==>
         && CountBounds(fast).0 <= |dss[k]| <= CountBounds(fast).1
         && forall i :: 0 <= i < |dss[k]| ==> InteractionDrawFits(dss[k][i], cs[k], now)
  }

  /** `_create_interactions`: for every customer, in order, between 4/5 and
      6/5 of the target number of interactions, with consecutive ids. */
  function CreateInteractions(cs: seq<Customer>, now: int, fast: bool, firstId: nat, dss: seq<seq<InteractionDraw>>)
    : (r: seq<Interaction>)
    requires InteractionDrawsFit(cs, now, fast, dss)
    ensures CountBounds(fast).0 * |cs| <= |r| <= CountBounds(fast).1 * |cs|
    ensures forall i :: 0 <= i < |r| ==> r[i].id == firstId + i
    ensures forall i :: 0 <= i < |r| ==> exists k :: 0 <= k < |cs| && GeneratedInteraction(r[i], cs[k], now)
    decreases |cs|
  {
    if |cs| == 0 then []
    else
      var first := InteractionsFor(cs[0], now, firstId, dss[0]);
      DrawsFitTail(cs, now, fast, dss);
      var rest := CreateInteractions(cs[1..], now, fast, firstId + |first|, dss[1..]);
      var (lo, hi) := CountBounds(fast);
      assert lo * |cs| == lo + lo * (|cs| - 1) && hi * |cs| == hi + hi * (|cs| - 1);
      var r := first + rest;
      assert forall i :: 0 <= i < |r| ==> exists k :: 0 <= k < |cs| && GeneratedInteraction(r[i], cs[k], now) by {
        forall i | 0 <= i < |r|
          ensures exists k :: 0 <= k < |cs| && GeneratedInteraction(r[i], cs[k], now)
        {
          if i < |first| {
            assert GeneratedInteraction(r[i], cs[0], now);
          } else {
            var k :| 0 <= k < |cs| - 1 && GeneratedInteraction(rest[i - |first|], cs[1..][k], now);
            assert GeneratedInteraction(r[i], cs[k + 1], now);
          }
        }
      }
      r
  }

  /** How many of the interactions belong to the customer with id `id`. */
  function CountOf(xs: seq<Interaction>, id: nat): nat {
    Count(xs, x => OfCustomer(x, id))
  }

  /** The draws after the first customer's fit the remaining customers. */
  lemma DrawsFitTail(cs: seq<Customer>, now: int, fast: bool, dss: seq<seq<InteractionDraw>>)
    requires InteractionDrawsFit(cs, now, fast, dss) && |cs| > 0
    ensures InteractionDrawsFit(cs[1..], now, fast, dss[1..])
  {
    forall k | 0 <= k < |cs| - 1
      ensures CountBounds(fast).0 <= |dss[1..][k]| <= CountBounds(fast).1
    {
      assert dss[1..][k] == dss[k + 1];
    }
  }

  /** No two customers share an id: each one's id differs from all later
      ones'. */
  predicate DistinctCustomerIds(cs: seq<Customer>)
    decreases |cs|
  {
    |cs| == 0 || ((forall c :: c in cs[1..] ==> c.id != cs[0].id) && DistinctCustomerIds(cs[1..]))
  }

  /** The first customer's interactions come first, then the rest's. */
  lemma CreateInteractionsUnfold(cs: seq<Customer>, now: int, fast: bool, firstId: nat, dss: seq<seq<InteractionDraw>>,
                                 next: nat)
    requires InteractionDrawsFit(cs, now, fast, dss) && |cs| > 0
    requires next == firstId + |dss[0]|
    ensures InteractionDrawsFit(cs[1..], now, fast, dss[1..])
    ensures CreateInteractions(cs, now, fast, firstId, dss)
            == InteractionsFor(cs[0], now, firstId, dss[0]) + CreateInteractions(cs[1..], now, fast, next, dss[1..])
  {
    DrawsFitTail(cs, now, fast, dss);
  }

  /** A customer's count splits into the first customer's part and the
      rest's. */
  lemma CountAtFirst(cs: seq<Customer>, now: int, fast: bool, firstId: nat, dss: seq<seq<InteractionDraw>>,
                     next: nat, id: nat)
    requires InteractionDrawsFit(cs, now, fast, dss) && |cs| > 0
    requires next == firstId + |dss[0]|
    ensures InteractionDrawsFit(cs[1..], now, fast, dss[1..])
    ensures CountOf(CreateInteractions(cs, now, fast, firstId, dss), id)
            == CountOf(InteractionsFor(cs[0], now, firstId, dss[0]), id)
               + CountOf(CreateInteractions(cs[1..], now, fast, next, dss[1..]), id)
  {
    CreateInteractionsUnfold(cs, now, fast, firstId, dss, next);
    var p := (x: Interaction) => OfCustomer(x, id);
    var first := InteractionsFor(cs[0], now, firstId, dss[0]);
    var rest := CreateInteractions(cs[1..], now, fast, next, dss[1..]);
    FilterConcat(first, rest, p);
    assert CountOf(first + rest, id) == Count(first + rest, p);
    assert CountOf(first, id) == Count(first, p) && CountOf(rest, id) == Count(rest, p);
  }

  /** One customer's interactions are counted for that customer only. */
  lemma OwnInteractionsCount(c: Customer, now: int, firstId: nat, ds: seq<InteractionDraw>, id: nat)
    requires forall i :: 0 <= i < |ds| ==> InteractionDrawFits(ds[i], c, now)
    ensures CountOf(InteractionsFor(c, now, firstId, ds), id) == if id == c.id then |ds| else 0
  {
    var xs := InteractionsFor(c, now, firstId, ds);
    var p := (x: Interaction) => OfCustomer(x, id);
    assert CountOf(xs, id) == Count(xs, p);
    assert forall x :: x in xs ==> x.customerId == c.id by {
      forall x | x in xs ensures x.customerId == c.id {
        var i :| 0 <= i < |xs| && xs[i] == x;
      }
    }
    if id == c.id {
      FilterKeepsAll(xs, p);
    } else {
      CountZero(xs, p);
    }
  }

  /** No interaction is generated for an id that no customer has. */
  lemma NoInteractionsForStranger(cs: seq<Customer>, now: int, fast: bool, firstId: nat,
                                  dss: seq<seq<InteractionDraw>>, id: nat)
    requires InteractionDrawsFit(cs, now, fast, dss)
    requires forall c :: c in cs ==> c.id != id
    ensures CountOf(CreateInteractions(cs, now, fast, firstId, dss), id) == 0
  {
    var xs := CreateInteractions(cs, now, fast, firstId, dss);
    forall x | x in xs ensures !OfCustomer(x, id) {
      var i :| 0 <= i < |xs| && xs[i] == x;
      var j :| 0 <= j < |cs| && GeneratedInteraction(xs[i], cs[j], now);
      assert cs[j] in cs;
    }
    var p := (x: Interaction) => OfCustomer(x, id);
    assert CountOf(xs, id) == Count(xs, p);
    CountZero(xs, p);
  }

  /** The first customer's count is its own draws. */
  lemma CountForFirst(cs: seq<Customer>, now: int, fast: bool, firstId: nat,
                      dss: seq<seq<InteractionDraw>>, id: nat)
    requires InteractionDrawsFit(cs, now, fast, dss)
    requires DistinctCustomerIds(cs)
    requires |cs| > 0 && cs[0].id == id
    ensures CountOf(CreateInteractions(cs, now, fast, firstId, dss), id) == |dss[0]|
  {
    var next: nat := firstId + |dss[0]|;
    CountAtFirst(cs, now, fast, firstId, dss, next, id);
    OwnInteractionsCount(cs[0], now, firstId, dss[0], id);
    NoInteractionsForStranger(cs[1..], now, fast, next, dss[1..], id);
  }

  /** Another customer's interactions do not count towards `id`. */
  lemma CountPastFirst(cs: seq<Customer>, now: int, fast: bool, firstId: nat,
                       dss: seq<seq<InteractionDraw>>, next: nat, id: nat)
    requires InteractionDrawsFit(cs, now, fast, dss)
    requires |cs| > 0 && cs[0].id != id
    requires next == firstId + |dss[0]|
    ensures InteractionDrawsFit(cs[1..], now, fast, dss[1..])
    ensures CountOf(CreateInteractions(cs, now, fast, firstId, dss), id)
            == CountOf(CreateInteractions(cs[1..], now, fast, next, dss[1..]), id)
  {
    CountAtFirst(cs, now, fast, firstId, dss, next, id);
    OwnInteractionsCount(cs[0], now, firstId, dss[0], id);
  }

  /** The interactions generated for the customer with id `id`, the `k`-th
      one, are exactly its drawn number. */
  lemma {:induction false} CountForCustomer(cs: seq<Customer>, now: int, fast: bool, firstId: nat,
                                            dss: seq<seq<InteractionDraw>>, k: nat, id: nat)
    requires InteractionDrawsFit(cs, now, fast, dss)
    requires DistinctCustomerIds(cs)
    requires k < |cs| && cs[k].id == id
    ensures CountOf(CreateInteractions(cs, now, fast, firstId, dss), id) == |dss[k]|
    decreases |cs|
  {
    if k == 0 {
      CountForFirst(cs, now, fast, firstId, dss, id);
    } else {
      var next: nat := firstId + |dss[0]|;
      CountPastFirst(cs, now, fast, firstId, dss, next, id);
      assert cs[1..][k - 1] == cs[k] && dss[1..][k - 1] == dss[k];
      CountForCustomer(cs[1..], now, fast, next, dss[1..], k - 1, id);
    }
  }

  /** Each customer receives exactly its own drawn number of interactions,
      so between 4/5 and 6/5 of the target. */
  lemma PerCustomerCountInRange(cs: seq<Customer>, now: int, fast: bool, firstId: nat,
                                dss: seq<seq<InteractionDraw>>, k: nat)
    requires InteractionDrawsFit(cs, now, fast, dss)
    requires DistinctCustomerIds(cs)
    requires k < |cs|
    ensures CountOf(CreateInteractions(cs, now, fast, firstId, dss), cs[k].id) == |dss[k]|
    ensures CountBounds(fast).0 <= CountOf(CreateInteractions(cs, now, fast, firstId, dss), cs[k].id)
                                <= CountBounds(fast).1
  {
    CountForCustomer(cs, now, fast, firstId, dss, k, cs[k].id);
  }

  /** In fast mode the thousand default customers get at least 40 000
      interactions; in normal mode at least 400 000. */
  lemma DefaultVolumes(cs: seq<Customer>, now: int, fast: bool, firstId: nat, dss: seq<seq<InteractionDraw>>)
    requires InteractionDrawsFit(cs, now, fast, dss) && |cs| == 1000
    ensures |CreateInteractions(cs, now, fast, firstId, dss)| >= (if fast then 40000 else 400000)
    ensures |CreateInteractions(cs, now, fast, firstId, dss)| <= (if fast then 60000 else 600000)
  {
  }

  // ---------------------------------------------------------------------
  // The repair pass
  // ---------------------------------------------------------------------

  /** The creation date the join `customer__created_at` finds for customer
      `id`, if there is such a customer. */
  function CreatedAtOf(cs: seq<Customer>, id: nat): (r: Option<int>)
    ensures r.Some? <==> exists c :: c in cs && c.id == id
    ensures r.Some? ==> exists c :: c in cs && c.id == id && c.createdAt == r.value
    ensures KeyUnique(cs, (c: Customer) => c.id) ==> forall c :: c in cs && c.id == id ==> r == Some(c.createdAt)
  {
    if |cs| == 0 then None
    else if cs[0].id == id then Some(cs[0].createdAt)
    else
      assert forall c :: c in cs[1..] ==> c in cs;
      CreatedAtOf(cs[1..], id)
  }

  /** `interaction_date__lt=F('customer__created_at')`. */
  predicate Problematic(cs: seq<Customer>, x: Interaction) {
    var t := CreatedAtOf(cs, x.customerId);
    t.Some? && x.date < t.value
  }

  /** How many of `xs` are problematic. */
  function CountProblematic(cs: seq<Customer>, xs: seq<Interaction>): nat {
    if |xs| == 0 then 0
    else CountProblematic(cs, xs[..|xs| - 1]) + (if Problematic(cs, xs[|xs| - 1]) then 1 else 0)
  }

  /** The offset draw: `random.uniform(60, T)` seconds, as whole seconds,
      when the customer is more than a minute old (`T` seconds), and
      `randint(1, 59)` otherwise. */
  predicate OffsetInRange(createdAt: int, now: int, offset: int) {
    if now - createdAt > Minute then Minute <= offset <= now - createdAt else 1 <= offset <= 59
  }

  /** The repaired date: the customer's creation plus the offset, never
      after now. */
  function RepairedDate(createdAt: int, now: int, offset: int): (r: int)
    requires OffsetInRange(createdAt, now, offset)
    ensures r <= now
    ensures createdAt <= now ==> createdAt <= r
    ensures createdAt < now ==> createdAt < r
    ensures now - createdAt > Minute ==> r == createdAt + offset
  {
    var d := createdAt + offset;
    if d > now then now else d
  }

  /** The offsets drawn for the problematic interactions fit their ranges. */
  predicate OffsetsFit(cs: seq<Customer>, xs: seq<Interaction>, now: int, offsets: seq<int>) {
    |offsets| == |xs|
    && forall i :: 0 <= i < |xs| && Problematic(cs, xs[i]) ==>
         OffsetInRange(CreatedAtOf(cs, xs[i].customerId).value, now, offsets[i])
  }

  /** One interaction after the pass: a problematic one gets the repaired
      date and keeps everything else (only `interaction_date` is saved). */
  function RepairOne(cs: seq<Customer>, now: int, x: Interaction, offset: int): (y: Interaction)
    requires Problematic(cs, x) ==> OffsetInRange(CreatedAtOf(cs, x.customerId).value, now, offset)
    ensures !Problematic(cs, x) ==> y == x
    ensures Problematic(cs, x) ==> y == x.(date := y.date) && y.date <= now
    ensures Problematic(cs, x) && CreatedAtOf(cs, x.customerId).value <= now ==>
              CreatedAtOf(cs, x.customerId).value <= y.date && !Problematic(cs, y)
  {
    if Problematic(cs, x) then
      x.(date := RepairedDate(CreatedAtOf(cs, x.customerId).value, now, offset))
    else
      x
  }

  /** `_fix_problematic_interactions`: counts the interactions dated before
      their customer, stops when there are none, and otherwise gives each of
      them a date after the customer's creation; then counts again. */
  method FixProblematicInteractions(cs: seq<Customer>, xs: seq<Interaction>, now: int, offsets: seq<int>)
    returns (ys: seq<Interaction>, fixed: nat, remaining: nat)
    requires OffsetsFit(cs, xs, now, offsets)
    ensures |ys| == |xs|
    ensures fixed == CountProblematic(cs, xs)
    ensures remaining == CountProblematic(cs, ys)
    ensures forall i :: 0 <= i < |xs| && !Problematic(cs, xs[i]) ==> ys[i] == xs[i]
    ensures forall i :: 0 <= i < |xs| && Problematic(cs, xs[i]) ==> ys[i] == xs[i].(date := ys[i].date) && ys[i].date <= now
    ensures forall i :: 0 <= i < |xs| && Problematic(cs, xs[i]) && CreatedAtOf(cs, xs[i].customerId).value <= now ==>
              CreatedAtOf(cs, xs[i].customerId).value <= ys[i].date
    ensures (forall c :: c in cs ==> c.createdAt <= now) ==> remaining == 0
  {
    var problematic := CountProblematic(cs, xs);
    if problematic == 0 {
      ZeroCountNoneProblematic(cs, xs);
      NoneProblematicAfter(cs, xs, xs, now);
      return xs, 0, 0;
    }
    ys := [];
    fixed := 0;
    var i := 0;
    while i < |xs|
      invariant 0 <= i <= |xs|
      invariant |ys| == i
      invariant fixed == CountProblematic(cs, xs[..i])
      invariant forall j :: 0 <= j < i ==> ys[j] == RepairOne(cs, now, xs[j], offsets[j])
    {
      assert xs[..i + 1][..i] == xs[..i];
      ys := ys + [RepairOne(cs, now, xs[i], offsets[i])];
      if Problematic(cs, xs[i]) {
        fixed := fixed + 1;
      }
      i := i + 1;
    }
    assert xs[..i] == xs;
    NoneProblematicAfter(cs, xs, ys, now);
    remaining := CountProblematic(cs, ys);
  }

  /** After the pass nothing is problematic, as long as no customer was
      created after `now`. */
  lemma NoneProblematicAfter(cs: seq<Customer>, xs: seq<Interaction>, ys: seq<Interaction>, now: int)
    requires |ys| == |xs|
    requires forall i :: 0 <= i < |xs| && !Problematic(cs, xs[i]) ==> ys[i] == xs[i]
    requires forall i :: 0 <= i < |xs| && Problematic(cs, xs[i]) && CreatedAtOf(cs, xs[i].customerId).value <= now
               ==> !Problematic(cs, ys[i])
    ensures (forall c :: c in cs ==> c.createdAt <= now) ==> CountProblematic(cs, ys) == 0
  {
    if forall c :: c in cs ==> c.createdAt <= now {
      forall i | 0 <= i < |ys|
        ensures !Problematic(cs, ys[i])
      {
        if Problematic(cs, xs[i]) {
          var t := CreatedAtOf(cs, xs[i].customerId);
          assert t.value <= now;
        }
      }
      NoneProblematic(cs, ys);
    }
  }

  lemma {:induction false} NoneProblematic(cs: seq<Customer>, ys: seq<Interaction>)
    requires forall i :: 0 <= i < |ys| ==> !Problematic(cs, ys[i])
    ensures CountProblematic(cs, ys) == 0
  {
    if |ys| > 0 {
      NoneProblematic(cs, ys[..|ys| - 1]);
    }
  }

  /** A count of zero means no interaction is problematic. */
  lemma {:induction false} ZeroCountNoneProblematic(cs: seq<Customer>, xs: seq<Interaction>)
    requires CountProblematic(cs, xs) == 0
    ensures forall i :: 0 <= i < |xs| ==> !Problematic(cs, xs[i])
  {
    if |xs| > 0 {
      var init := xs[..|xs| - 1];
      ZeroCountNoneProblematic(cs, init);
      forall i | 0 <= i < |xs| - 1
        ensures !Problematic(cs, xs[i])
      {
        assert xs[i] == init[i];
      }
    }
  }
}

=== FILE: seqs.dfy ===
/** Sequence helpers shared by the model: order-preserving filtering, counting
    and summing. A database table is modelled as a sequence of rows, so a query
    `filter(...)` is `Filter` and `count()` is the length of its result. */
module Seqs {

  /** No element occurs twice. */
  predicate Distinct<T(==,!new)>(xs: seq<T>) {
    forall i, j :: 0 <= i < j < |xs| ==> xs[i] != xs[j]
  }

  /** The elements of `xs` that satisfy `p`, in their original order. */
  function Filter<T(==,!new)>(xs: seq<T>, p: T -> bool): (r: seq<T>)
    ensures |r| <= |xs|
    ensures forall x :: x in r <==> x in xs && p(x)
    ensures multiset(r) <= multiset(xs)
    ensures Distinct(xs) ==> Distinct(r)
  {
    if |xs| == 0 then []
    else
      var rest := Filter(xs[1..], p);
      assert xs == [xs[0]] + xs[1..];
      assert multiset(xs) == multiset([xs[0]]) + multiset(xs[1..]);
      if p(xs[0]) then
        assert Distinct(xs) ==> xs[0] !in xs[1..] && Distinct(xs[1..]) by {
          if Distinct(xs) {
            forall k | 0 <= k < |xs[1..]|
              ensures xs[1..][k] != xs[0]
            {
              assert xs[1..][k] == xs[k + 1];
            }
          }
        }
        assert multiset([xs[0]] + rest) == multiset([xs[0]]) + multiset(rest);
        [xs[0]] + rest
      else
        rest
  }

  /** How many elements of `xs` satisfy `p`. */
  function Count<T(==,!new)>(xs: seq<T>, p: T -> bool): nat {
    |Filter(xs, p)|
  }

  /** Sum of a sequence of counts. */
  function Sum(xs: seq<nat>): nat {
    if |xs| == 0 then 0 else xs[0] + Sum(xs[1..])
  }

  lemma {:induction false} FilterConcat<T(!new)>(a: seq<T>, b: seq<T>, p: T -> bool)
    ensures Filter(a + b, p) == Filter(a, p) + Filter(b, p)
  {
    if |a| > 0 {
      assert (a + b)[1..] == a[1..] + b;
      FilterConcat(a[1..], b, p);
    } else {
      assert a + b == b;
    }
  }

  /** Filtering twice is filtering once by the conjunction. */
  lemma {:induction false} FilterFilter<T(!new)>(xs: seq<T>, p: T -> bool, q: T -> bool)
    ensures Filter(Filter(xs, p), q) == Filter(xs, x => p(x) && q(x))
  {
    if |xs| > 0 {
      FilterFilter(xs[1..], p, q);
    }
  }

  /** The order in which two filters are applied does not matter. */
  lemma FilterCommutes<T(!new)>(xs: seq<T>, p: T -> bool, q: T -> bool)
    ensures Filter(Filter(xs, p), q) == Filter(Filter(xs, q), p)
  {
    FilterFilter(xs, p, q);
    FilterFilter(xs, q, p);
    FilterSamePredicate(xs, x => p(x) && q(x), x => q(x) && p(x));
  }

  /** Three filters in a row are one filter by their conjunction. */
  lemma FilterThree<T(!new)>(xs: seq<T>, a: T -> bool, b: T -> bool, c: T -> bool, p: T -> bool)
    requires forall x :: p(x) == (a(x) && b(x) && c(x))
    ensures Filter(Filter(Filter(xs, a), b), c) == Filter(xs, p)
  {
    FilterFilter(xs, a, b);
    var ab := x => a(x) && b(x);
    FilterFilter(xs, ab, c);
    FilterSamePredicate(xs, x => ab(x) && c(x), p);
  }

  /** Counting `q` among the elements passing `p` counts their conjunction. */
  lemma CountWithin<T(!new)>(xs: seq<T>, p: T -> bool, q: T -> bool, pq: T -> bool)
    requires forall x :: pq(x) == (p(x) && q(x))
    ensures Count(Filter(xs, p), q) == Count(xs, pq)
  {
    FilterFilter(xs, p, q);
    FilterSamePredicate(xs, x => p(x) && q(x), pq);
  }

  /** Filters by pointwise-equal predicates agree. */
  lemma {:induction false} FilterSamePredicate<T(!new)>(xs: seq<T>, p: T -> bool, q: T -> bool)
    requires forall x :: x in xs ==> p(x) == q(x)
    ensures Filter(xs, p) == Filter(xs, q)
  {
    if |xs| > 0 {
      assert forall x :: x in xs[1..] ==> x in xs;
      FilterSamePredicate(xs[1..], p, q);
    }
  }

  /** A filter every element passes changes nothing. */
  lemma {:induction false} FilterKeepsAll<T(!new)>(xs: seq<T>, p: T -> bool)
    requires forall x :: x in xs ==> p(x)
    ensures Filter(xs, p) == xs
  {
    if |xs| > 0 {
      assert forall x :: x in xs[1..] ==> x in xs;
      FilterKeepsAll(xs[1..], p);
      assert xs == [xs[0]] + xs[1..];
    }
  }

  /** Every element passes exactly one of two complementary tests. */
  lemma {:induction false} CountSplit<T(!new)>(xs: seq<T>, p: T -> bool, q: T -> bool)
    requires forall x :: x in xs ==> q(x) == !p(x)
    ensures Count(xs, p) + Count(xs, q) == |xs|
  {
    if |xs| > 0 {
      assert forall x :: x in xs[1..] ==> x in xs;
      CountSplit(xs[1..], p, q);
    }
  }

  /** A sequence with no members is empty. */
  lemma NoMembersEmpty<T(!new)>(xs: seq<T>)
    requires forall x :: x !in xs
    ensures xs == []
  {
    if |xs| > 0 {
      HeadIsMember(xs);
    }
  }

  lemma HeadIsMember<T>(xs: seq<T>)
    requires |xs| > 0
    ensures xs[0] in xs
  {
  }

  /** The elements of a sequence, as a set. */
  function Elements<T>(xs: seq<T>): set<T> {
    set x | x in xs
  }

  /** A sequence without repetitions has as many elements as its set. */
  lemma {:induction false} DistinctCard<T(!new)>(xs: seq<T>)
    requires Distinct(xs)
    ensures |Elements(xs)| == |xs|
  {
    if |xs| > 0 {
      assert Distinct(xs[1..]);
      DistinctCard(xs[1..]);
      assert Elements(xs) == {xs[0]} + Elements(xs[1..]) by {
        assert xs == [xs[0]] + xs[1..];
      }
      assert xs[0] !in Elements(xs[1..]);
    }
  }

  /** Two sequences without repetitions and with the same elements have the
      same length. */
  lemma SameElementsSameLength<T(!new)>(a: seq<T>, b: seq<T>)
    requires Distinct(a) && Distinct(b)
    requires forall x :: x in a <==> x in b
    ensures |a| == |b|
  {
    DistinctCard(a);
    DistinctCard(b);
    assert Elements(a) == Elements(b);
  }

  /** Nothing is counted exactly when no element passes. */
  lemma CountZero<T(!new)>(xs: seq<T>, p: T -> bool)
    ensures Count(xs, p) == 0 <==> forall x :: x in xs ==> !p(x)
  {
    if forall x :: x in xs ==> !p(x) {
      NoMembersEmpty(Filter(xs, p));
    }
  }

  /** A weaker test counts at least as many elements. */
  lemma {:induction false} CountMonotone<T(!new)>(xs: seq<T>, p: T -> bool, q: T -> bool)
    requires forall x :: x in xs && p(x) ==> q(x)
    ensures Count(xs, p) <= Count(xs, q)
  {
    if |xs| > 0 {
      assert forall x :: x in xs[1..] ==> x in xs;
      CountMonotone(xs[1..], p, q);
    }
  }

  /** In a sequence without repetitions every element occurs once. */
  lemma {:induction false} DistinctOnce<T(!new)>(xs: seq<T>)
    requires Distinct(xs)
    ensures forall x :: multiset(xs)[x] <= 1
  {
    if |xs| > 0 {
      assert Distinct(xs[1..]);
      DistinctOnce(xs[1..]);
      assert xs == [xs[0]] + xs[1..];
      assert xs[0] !in xs[1..];
    }
  }

  /** A sequence in which every element occurs at most once has no
      repetitions. */
  lemma OnceDistinct<T(!new)>(xs: seq<T>)
    requires forall x :: multiset(xs)[x] <= 1
    ensures Distinct(xs)
  {
    forall i, j | 0 <= i < j < |xs|
      ensures xs[i] != xs[j]
    {
      var front, back := xs[..j], xs[j..];
      assert xs == front + back;
      assert xs[i] == front[i];
      assert xs[j] == back[0];
      assert multiset(xs)[xs[i]] == multiset(front)[xs[i]] + multiset(back)[xs[i]];
      assert multiset(front)[front[i]] >= 1;
      assert multiset(back)[back[0]] >= 1;
    }
  }

  /** A rearrangement of a sequence without repetitions has none either. */
  lemma DistinctPermutation<T(!new)>(a: seq<T>, b: seq<T>)
    requires multiset(a) == multiset(b) && Distinct(a)
    ensures Distinct(b)
  {
    DistinctOnce(a);
    OnceDistinct(b);
  }
}

=== FILE: sorting.dfy ===
/** Ordering of query results. `order_by` on text columns is modelled as
    lexicographic order by code point (the binary collation), on a key of one
    or two columns. */
module Sorting {

  /** Lexicographic order on strings, by code point. */
  predicate StrLe(a: string, b: string) {
    |a| == 0 || (|b| > 0 && (a[0] < b[0] || (a[0] == b[0] && StrLe(a[1..], b[1..]))))
  }

  lemma {:induction false} StrLeTotal(a: string, b: string)
    ensures StrLe(a, b) || StrLe(b, a)
  {
    if |a| > 0 && |b| > 0 && a[0] == b[0] {
      StrLeTotal(a[1..], b[1..]);
    }
  }

  lemma {:induction false} StrLeAntisymmetric(a: string, b: string)
    requires StrLe(a, b) && StrLe(b, a)
    ensures a == b
  {
    if |a| > 0 {
      StrLeAntisymmetric(a[1..], b[1..]);
      assert a == [a[0]] + a[1..] && b == [b[0]] + b[1..];
    }
  }

  lemma {:induction false} StrLeTransitive(a: string, b: string, c: string)
    requires StrLe(a, b) && StrLe(b, c)
    ensures StrLe(a, c)
  {
    if |a| > 0 && a[0] == b[0] && b[0] == c[0] {
      StrLeTransitive(a[1..], b[1..], c[1..]);
    }
  }

  /** A sort key of one or two text columns: `order_by(primary, secondary)`.
      A single-column ordering uses the empty string as its second column. */
  datatype SortKey = SortKey(primary: string, secondary: string)

  predicate KeyLe(a: SortKey, b: SortKey) {
    if a.primary == b.primary then StrLe(a.secondary, b.secondary) else StrLe(a.primary, b.primary)
  }

  lemma KeyLeTotal(a: SortKey, b: SortKey)
    ensures KeyLe(a, b) || KeyLe(b, a)
  {
    StrLeTotal(a.primary, b.primary);
    StrLeTotal(a.secondary, b.secondary);
  }

  lemma KeyLeTransitive(a: SortKey, b: SortKey, c: SortKey)
    requires KeyLe(a, b) && KeyLe(b, c)
    ensures KeyLe(a, c)
  {
    if a.primary == b.primary && b.primary == c.primary {
      StrLeTransitive(a.secondary, b.secondary, c.secondary);
    } else if a.primary != b.primary && b.primary != c.primary {
      StrLeTransitive(a.primary, b.primary, c.primary);
      if a.primary == c.primary {
        StrLeAntisymmetric(a.primary, b.primary);
      }
    }
  }

  /** `xs` is in ascending key order. */
  predicate Sorted<T>(xs: seq<T>, key: T -> SortKey) {
    forall i, j :: 0 <= i < j < |xs| ==> KeyLe(key(xs[i]), key(xs[j]))
  }

  /** `y` sorts no later than any element of `ys`. */
  predicate AtMostAll<T>(y: T, ys: seq<T>, key: T -> SortKey) {
    forall k :: 0 <= k < |ys| ==> KeyLe(key(y), key(ys[k]))
  }

  lemma AtMostAllPermutation<T>(y: T, ys: seq<T>, x: T, zs: seq<T>, key: T -> SortKey)
    requires AtMostAll(y, ys, key) && KeyLe(key(y), key(x))
    requires multiset(zs) == multiset(ys) + multiset{x}
    ensures AtMostAll(y, zs, key)
  {
    forall k | 0 <= k < |zs|
      ensures KeyLe(key(y), key(zs[k]))
    {
      assert zs[k] in multiset(zs);
      if zs[k] != x {
        assert zs[k] in multiset(ys);
        var j :| 0 <= j < |ys| && ys[j] == zs[k];
      }
    }
  }

  /** Inserts `x` into sorted `xs` before the first element it sorts before. */
  function Insert<T>(x: T, xs: seq<T>, key: T -> SortKey): (r: seq<T>)
    requires Sorted(xs, key)
    ensures multiset(r) == multiset(xs) + multiset{x}
    ensures Sorted(r, key)
  {
    if |xs| == 0 then [x]
    else if KeyLe(key(x), key(xs[0])) then
      assert AtMostAll(x, xs, key) by {
        forall k | 0 <= k < |xs|
          ensures KeyLe(key(x), key(xs[k]))
        {
          if k > 0 {
            KeyLeTransitive(key(x), key(xs[0]), key(xs[k]));
          }
        }
      }
      assert xs == [xs[0]] + xs[1..];
      [x] + xs
    else
      var rest := Insert(x, xs[1..], key);
      KeyLeTotal(key(x), key(xs[0]));
      assert AtMostAll(xs[0], xs[1..], key);
      AtMostAllPermutation(xs[0], xs[1..], x, rest, key);
      assert xs == [xs[0]] + xs[1..];
      [xs[0]] + rest
  }

  /** Insertion sort: a permutation of `xs` in ascending key order. */
  function Sort<T>(xs: seq<T>, key: T -> SortKey): (r: seq<T>)
    ensures multiset(r) == multiset(xs)
    ensures Sorted(r, key)
  {
    if |xs| == 0 then []
    else
      assert xs == [xs[0]] + xs[1..];
      Insert(xs[0], Sort(xs[1..], key), key)
  }
}

=== FILE: text.dfy ===
/** Text operations the system relies on: Python's `str.lower` and the
    database's case-insensitive substring test (`icontains`). Strings are
    sequences of Unicode scalar values, as Python's `str` is. */
module Text {

  /** Whether `c` is an upper-case letter whose lower-case form is `c + 32`:
      the ASCII capitals and the Latin-1 capitals U+00C0..U+00DE, except the
      multiplication sign U+00D7. */
  predicate IsShiftedCapital(c: char) {
    ('A' <= c <= 'Z') || ('À' <= c <= 'Þ' && c != '×')
  }

  /** One character of `str.lower`, on the ASCII and Latin-1 range. */
  function LowerChar(c: char): char {
    if IsShiftedCapital(c) then (c as int + 32) as char else c
  }

  /** `str.lower`, character by character. */
  function Lower(s: string): (r: string)
    ensures |r| == |s|
    ensures forall i :: 0 <= i < |s| ==> r[i] == LowerChar(s[i])
  {
    if |s| == 0 then "" else [LowerChar(s[0])] + Lower(s[1..])
  }

  /** A text without capitals is its own lower case. */
  lemma LowerOfLowerCase(s: string)
    requires forall i :: 0 <= i < |s| ==> !IsShiftedCapital(s[i])
    ensures Lower(s) == s
  {
  }

  /** Lower-casing twice is lower-casing once. */
  lemma LowerIdempotent(s: string)
    ensures Lower(Lower(s)) == Lower(s)
  {
    LowerOfLowerCase(Lower(s));
  }

  predicate IsPrefix(p: string, s: string) {
    |p| <= |s| && s[..|p|] == p
  }

  /** Substring test, by trying every start position from the left. */
  predicate Contains(hay: string, needle: string)
    decreases |hay|
  {
    IsPrefix(needle, hay) || (|hay| > 0 && Contains(hay[1..], needle))
  }

  /** `needle` occurs in `hay` starting at position `i`. */
  ghost predicate OccursAt(needle: string, hay: string, i: int) {
    0 <= i && i + |needle| <= |hay| && hay[i..i + |needle|] == needle
  }

  /** `Contains` finds exactly the positions where the needle occurs. */
  lemma {:induction false} ContainsIffOccurs(hay: string, needle: string)
    ensures Contains(hay, needle) <==> exists i :: OccursAt(needle, hay, i)
    decreases |hay|
  {
    assert IsPrefix(needle, hay) <==> OccursAt(needle, hay, 0) by {
      if |needle| <= |hay| { assert hay[..|needle|] == hay[0..|needle|]; }
    }
    if |hay| > 0 {
      ContainsIffOccurs(hay[1..], needle);
      if exists i :: OccursAt(needle, hay[1..], i) {
        var i :| OccursAt(needle, hay[1..], i);
        assert hay[1..][i..i + |needle|] == hay[i + 1..i + 1 + |needle|];
        assert OccursAt(needle, hay, i + 1);
      }
      if exists i :: OccursAt(needle, hay, i) {
        var i :| OccursAt(needle, hay, i);
        if i > 0 {
          assert hay[1..][i - 1..i - 1 + |needle|] == hay[i..i + |needle|];
          assert OccursAt(needle, hay[1..], i - 1);
        }
      }
    } else {
      if |needle| == 0 {
        assert OccursAt(needle, hay, 0);
      }
      if exists i :: OccursAt(needle, hay, i) {
        var i :| OccursAt(needle, hay, i);
        assert |needle| == 0;
      }
    }
  }

  /** The case-insensitive substring test of the `icontains` lookup. */
  predicate ContainsIgnoreCase(hay: string, needle: string) {
    Contains(Lower(hay), Lower(needle))
  }

  /** `icontains` holds exactly when the lower-cased needle occurs somewhere
      in the lower-cased text, and it does not see the case of either side. */
  lemma ContainsIgnoreCaseMeaning(hay: string, needle: string)
    ensures ContainsIgnoreCase(hay, needle) <==> exists i :: OccursAt(Lower(needle), Lower(hay), i)
    ensures ContainsIgnoreCase(hay, needle) <==> ContainsIgnoreCase(Lower(hay), Lower(needle))
  {
    ContainsIffOccurs(Lower(hay), Lower(needle));
    LowerIdempotent(hay);
    LowerIdempotent(needle);
  }
}

=== FILE: validate.dfy ===
/** The `validate_data` command (crm_app/management/commands/validate_data.py):
    three independent checks of a store, each ending in a verdict.

    - the basic count check compares the table sizes with fixed minimums;
    - the referential-integrity check counts customers whose company or
      sales representative is missing;
    - the business-logic check counts future birth dates, future
      interactions, interactions dated before their customer, underage
      customers, and flags an unbalanced distribution of customers over the
      sales representatives.

    `now` is a timestamp in seconds and "today" is `now / Day`. */
module Validate {
  import opened Wrappers
  import opened Seqs
  import opened Models
  import opened Populate

  // ---------------------------------------------------------------------
  // Basic counts
  // ---------------------------------------------------------------------

  const MinSalesReps: nat := 3
  const MinCompanies: nat := 30
  const MinCustomers: nat := 800
  const MinInteractions: nat := 40000

  /** A table with fewer rows than expected, and its row count. */
  datatype CountIssue =
    | FewSalesReps(count: nat)
    | FewCompanies(count: nat)
    | FewCustomers(count: nat)
    | FewInteractions(count: nat)

  /** The issues `_basic_validation` raises for the given counts, in the order
      it checks them. */
  function BasicIssues(salesReps: nat, companies: nat, customers: nat, interactions: nat): (r: seq<CountIssue>)
    ensures FewSalesReps(salesReps) in r <==> salesReps < MinSalesReps
    ensures FewCompanies(companies) in r <==> companies < MinCompanies
    ensures FewCustomers(customers) in r <==> customers < MinCustomers
    ensures FewInteractions(interactions) in r <==> interactions < MinInteractions
    ensures forall e :: e in r ==> e in {FewSalesReps(salesReps), FewCompanies(companies), FewCustomers(customers), FewInteractions(interactions)}
    ensures Distinct(r)
    ensures r == [] <==>
              salesReps >= MinSalesReps && companies >= MinCompanies && customers >= MinCustomers && interactions >= MinInteractions
  {
    (if salesReps < MinSalesReps then [FewSalesReps(salesReps)] else [])
    + (if companies < MinCompanies then [FewCompanies(companies)] else [])
    + (if customers < MinCustomers then [FewCustomers(customers)] else [])
    + (if interactions < MinInteractions then [FewInteractions(interactions)] else [])
  }

  /** `_basic_validation` on a store: sales representatives are the accounts
      that are not superusers; superusers are counted but never an issue. */
  function BasicValidation(s: Store): (r: seq<CountIssue>)
    ensures r == [] <==>
              && Count(s.users, IsSalesRep) >= MinSalesReps
              && |s.companies| >= MinCompanies
              && |s.customers| >= MinCustomers
              && |s.interactions| >= MinInteractions
  {
    BasicIssues(Count(s.users, IsSalesRep), |s.companies|, |s.customers|, |s.interactions|)
  }

  /** A default population (three representatives, fifty companies, a
      thousand customers with generated interactions) passes the count check
      in both modes. The representative and company counts are the
      generator's defaults, the number of profiles and the requested fifty
      names, taken as given rather than counted in the stores the generator
      builds; the interaction count is the one `CreateInteractions` yields. */
  lemma PopulatedCountsInRange(cs: seq<Customer>, now: int, fast: bool, firstId: nat, dss: seq<seq<InteractionDraw>>)
    requires InteractionDrawsFit(cs, now, fast, dss) && |cs| == 1000
    ensures BasicIssues(|RepProfiles|, 50, |cs|, |CreateInteractions(cs, now, fast, firstId, dss)|) == []
  {
    DefaultVolumes(cs, now, fast, firstId, dss);
  }

  // ---------------------------------------------------------------------
  // Referential integrity
  // ---------------------------------------------------------------------

  /** The five counts of `_referential_integrity`. */
  datatype IntegrityReport = IntegrityReport(
    customersWithoutCompany: nat,
    customersWithoutRep: nat,
    interactionsWithoutCustomer: nat,
    invalidCompanyRefs: nat,
    invalidRepRefs: nat)

  predicate MissingCompany(s: Store, c: Customer) {
    !HasCompany(s, c.companyId)
  }

  predicate MissingRep(s: Store, c: Customer) {
    !HasUser(s, c.salesRepId)
  }

  /** The three `isnull` counts are zero because the foreign-key columns are
      not nullable; the two `exclude(... __in=...)` counts are the customers
      whose company, respectively representative, is not in its table. */
  function CheckIntegrity(s: Store): (r: IntegrityReport)
    ensures r.customersWithoutCompany == 0 && r.customersWithoutRep == 0 && r.interactionsWithoutCustomer == 0
    ensures r.invalidCompanyRefs <= |s.customers| && r.invalidRepRefs <= |s.customers|
    ensures r.invalidCompanyRefs == 0 <==> forall c :: c in s.customers ==> HasCompany(s, c.companyId)
    ensures r.invalidRepRefs == 0 <==> forall c :: c in s.customers ==> HasUser(s, c.salesRepId)
  {
    CountZero(s.customers, c => MissingCompany(s, c));
    CountZero(s.customers, c => MissingRep(s, c));
    IntegrityReport(
      0, 0, 0,
      Count(s.customers, c => MissingCompany(s, c)),
      Count(s.customers, c => MissingRep(s, c)))
  }

  /** "Integridad referencial correcta": all five counts are zero. */
  predicate IntegrityCorrect(r: IntegrityReport) {
    && r.customersWithoutCompany == 0
    && r.customersWithoutRep == 0
    && r.interactionsWithoutCustomer == 0
    && r.invalidCompanyRefs == 0
    && r.invalidRepRefs == 0
  }

  /** The check is reported correct exactly when every customer's company and
      representative exist. It does not look at the interactions' customers. */
  lemma IntegrityVerdict(s: Store)
    ensures IntegrityCorrect(CheckIntegrity(s)) <==> CustomerRefsValid(s)
  {
  }

  // ---------------------------------------------------------------------
  // Ages
  // ---------------------------------------------------------------------

  /** Eighteen years, counted as 18 * 365 days. */
  const AdultDays: int := 18 * 365

  /** The age in whole years, `(today - birth).days // 365`. */
  function Age(birth: int, today: int): int {
    (today - birth) / 365
  }

  /** `birth_date__gt=today - timedelta(days=18*365)`. */
  predicate BornAfter(c: Customer, day: int) {
    c.birthDate.Some? && c.birthDate.value > day
  }

  predicate IsUnderage(c: Customer, today: int) {
    BornAfter(c, today - AdultDays)
  }

  /** The underage test agrees with the age formula: born after the day
      eighteen years of 365 days ago exactly when the age is under 18. */
  lemma UnderageIffAgeBelow18(birth: int, today: int)
    ensures birth > today - AdultDays <==> Age(birth, today) < 18
  {
    var d := today - birth;
    if d < AdultDays {
      assert d / 365 < 18;
    } else {
      assert d / 365 >= 18;
    }
  }

  /** A birth date drawn as `today - age * 365` gives back that age. */
  lemma AgeOfGeneratedBirth(age: nat, today: int)
    ensures Age(today - age * 365, today) == age
  {
    assert today - (today - age * 365) == age * 365;
  }

  /** A birth date in the future is an underage one. */
  lemma FutureBirthIsUnderage(c: Customer, today: int)
    ensures BornAfter(c, today) ==> IsUnderage(c, today)
  {
  }

  lemma TodayMonotone(a: int, b: int)
    requires a <= b
    ensures Today(a) <= Today(b)
  {
  }

  /** A generated customer is never underage, on the day it was generated or
      on any later day. */
  lemma GeneratedCustomerAdult(c: Customer, companies: seq<Company>, generatedAt: int, now: int)
    requires GeneratedCustomer(c, companies, generatedAt) && generatedAt <= now
    ensures !IsUnderage(c, Today(now))
  {
    TodayMonotone(generatedAt, now);
  }

  // ---------------------------------------------------------------------
  // Distribution over the sales representatives
  // ---------------------------------------------------------------------

  /** Whether the account `id` exists: the inner join of
      `values('sales_rep__username')` keeps a customer only then. */
  predicate RepExists(us: seq<User>, id: nat) {
    exists u :: u in us && u.id == id
  }

  /** The representatives that exist and have at least one customer, each
      once, in the order of their first customer (the grouping of
      `values('sales_rep__username').annotate(count=...)`). */
  function RepIdsOf(cs: seq<Customer>, us: seq<User>): (r: seq<nat>)
    ensures Distinct(r)
    ensures forall id :: id in r <==> (exists c :: c in cs && c.salesRepId == id) && RepExists(us, id)
  {
    if |cs| == 0 then []
    else
      var init := cs[..|cs| - 1];
      var last := cs[|cs| - 1];
      var ids := RepIdsOf(init, us);
      assert forall c :: c in cs <==> c in init || c == last by {
        assert cs == init + [last];
      }
      if last.salesRepId in ids || !RepExists(us, last.salesRepId) then ids else ids + [last.salesRepId]
  }

  lemma {:induction false} RepCountPositive(cs: seq<Customer>, id: nat)
    ensures RepCount(cs, id) > 0 <==> exists c :: c in cs && c.salesRepId == id
  {
    if |cs| > 0 {
      var init := cs[..|cs| - 1];
      RepCountPositive(init, id);
      assert cs == init + [cs[|cs| - 1]];
      assert forall c :: c in cs <==> c in init || c == cs[|cs| - 1];
    }
  }

  lemma {:induction false} RepCountAtMost(cs: seq<Customer>, id: nat)
    ensures RepCount(cs, id) <= |cs|
  {
    if |cs| > 0 {
      RepCountAtMost(cs[..|cs| - 1], id);
    }
  }

  /** The customer count of every group. There is no group exactly when no
      customer's representative exists. */
  function RepLoads(cs: seq<Customer>, us: seq<User>): (r: seq<nat>)
    ensures |r| == |RepIdsOf(cs, us)|
    ensures forall i :: 0 <= i < |r| ==> r[i] == RepCount(cs, RepIdsOf(cs, us)[i]) && 0 < r[i] <= |cs|
    ensures |r| == 0 <==> forall c :: c in cs ==> !RepExists(us, c.salesRepId)
  {
    var ids := RepIdsOf(cs, us);
    assert forall i :: 0 <= i < |ids| ==> RepCount(cs, ids[i]) <= |cs| by {
      forall i | 0 <= i < |ids|
        ensures RepCount(cs, ids[i]) <= |cs|
      {
        RepCountAtMost(cs, ids[i]);
      }
    }
    assert forall i :: 0 <= i < |ids| ==> RepCount(cs, ids[i]) > 0 by {
      forall i | 0 <= i < |ids|
        ensures RepCount(cs, ids[i]) > 0
      {
        assert ids[i] in ids;
        RepCountPositive(cs, ids[i]);
      }
    }
    assert (exists c :: c in cs && RepExists(us, c.salesRepId)) ==> |ids| > 0 by {
      if c :| c in cs && RepExists(us, c.salesRepId) {
        assert c.salesRepId in ids;
      }
    }
    assert |ids| > 0 ==> exists c :: c in cs && RepExists(us, c.salesRepId) by {
      if |ids| > 0 {
        assert ids[0] in ids;
      }
    }
    seq(|ids|, i requires 0 <= i < |ids| => RepCount(cs, ids[i]))
  }

  function MaxOf(xs: seq<nat>): (m: nat)
    requires |xs| > 0
    ensures m in xs && forall x :: x in xs ==> x <= m
  {
    if |xs| == 1 then xs[0]
    else
      var rest := MaxOf(xs[1..]);
      assert forall x :: x in xs ==> x == xs[0] || x in xs[1..];
      if xs[0] >= rest then xs[0] else rest
  }

  function MinOf(xs: seq<nat>): (m: nat)
    requires |xs| > 0
    ensures m in xs && forall x :: x in xs ==> m <= x
  {
    if |xs| == 1 then xs[0]
    else
      var rest := MinOf(xs[1..]);
      assert forall x :: x in xs ==> x == xs[0] || x in xs[1..];
      if xs[0] <= rest then xs[0] else rest
  }

  /** The imbalance flag: with no groups both extremes are 0 and the ratio is
      infinite; with a zero minimum it is infinite too; otherwise it is
      flagged when the largest group is more than twice the smallest. So it
      is raised exactly when there is no group, some group is empty, or one
      group has more than twice as many customers as another. */
  function Imbalanced(loads: seq<nat>): (r: bool)
    ensures r <==>
              || |loads| == 0
              || (exists l :: l in loads && l == 0)
              || (exists a, b :: a in loads && b in loads && a > 2 * b)
  {
    var maxCustomers := if |loads| > 0 then MaxOf(loads) else 0;
    var minCustomers := if |loads| > 0 then MinOf(loads) else 0;
    if minCustomers > 0 then maxCustomers > 2 * minCustomers else true
  }

  /** Customers assigned round-robin over distinct representatives are
      never reported as unbalanced. */
  lemma RoundRobinNotImbalanced(cs: seq<Customer>, reps: seq<User>, us: seq<User>)
    requires AssignedInTurn(cs, reps) && DistinctIds(reps) && |cs| > 0
    requires forall r :: r in reps ==> r in us
    ensures !Imbalanced(RepLoads(cs, us))
  {
    var n, k := |cs|, |reps|;
    assert reps[0] in us && cs[0].salesRepId == reps[0].id;
    var loads := RepLoads(cs, us);
    var ids := RepIdsOf(cs, us);
    forall l | l in loads
      ensures n / k <= l <= n / k + 1 && l > 0
    {
      var i :| 0 <= i < |loads| && loads[i] == l;
      assert ids[i] in ids;
      var c :| c in cs && c.salesRepId == ids[i];
      var m :| 0 <= m < |cs| && cs[m] == c;
      var j := m % k;
      RoundRobinCount(cs, reps, j);
      LoadsBalanced(n, k, j, j);
    }
    forall a, b | a in loads && b in loads
      ensures a <= 2 * b
    {
    }
  }

  // ---------------------------------------------------------------------
  // Business logic
  // ---------------------------------------------------------------------

  /** The counts and the flag of `_business_logic_validation`. */
  datatype BusinessReport = BusinessReport(
    futureBirths: nat,
    futureInteractions: nat,
    invalidInteractionDates: nat,
    underage: nat,
    imbalanced: bool)

  predicate InFuture(x: Interaction, now: int) {
    x.date > now
  }

  function CheckBusinessLogic(s: Store, now: int): (r: BusinessReport)
    ensures r.futureBirths <= r.underage <= |s.customers|
    ensures r.futureBirths == 0 <==> forall c :: c in s.customers ==> !BornAfter(c, Today(now))
    ensures r.underage == 0 <==> forall c :: c in s.customers ==> !IsUnderage(c, Today(now))
    ensures r.futureInteractions == 0 <==> forall x :: x in s.interactions ==> x.date <= now
    ensures r.invalidInteractionDates == CountProblematic(s.customers, s.interactions)
    ensures r.imbalanced == Imbalanced(RepLoads(s.customers, s.users))
  {
    var today := Today(now);
    CountZero(s.customers, c => BornAfter(c, today));
    CountZero(s.customers, c => IsUnderage(c, today));
    CountZero(s.interactions, x => InFuture(x, now));
    CountMonotone(s.customers, c => BornAfter(c, today), c => IsUnderage(c, today));
    BusinessReport(
      Count(s.customers, c => BornAfter(c, today)),
      Count(s.interactions, x => InFuture(x, now)),
      CountProblematic(s.customers, s.interactions),
      Count(s.customers, c => IsUnderage(c, today)),
      Imbalanced(RepLoads(s.customers, s.users)))
  }

  /** Customers whose representative row is missing drop out of the
      grouping; when that leaves no group, both extremes are 0 and the
      distribution is flagged. */
  lemma MissingRepresentativesFlagged(s: Store, now: int)
    requires forall c :: c in s.customers ==> !HasUser(s, c.salesRepId)
    ensures RepLoads(s.customers, s.users) == []
    ensures CheckBusinessLogic(s, now).imbalanced
  {
  }

  /** "Lógica de negocio correcta": no count is positive and no imbalance. */
  predicate BusinessCorrect(r: BusinessReport) {
    && r.futureBirths == 0
    && r.futureInteractions == 0
    && r.invalidInteractionDates == 0
    && r.underage == 0
    && !r.imbalanced
  }

  lemma CountProblematicZero(cs: seq<Customer>, xs: seq<Interaction>)
    ensures CountProblematic(cs, xs) == 0 <==> forall x :: x in xs ==> !Problematic(cs, x)
  {
    if CountProblematic(cs, xs) == 0 {
      ZeroCountNoneProblematic(cs, xs);
    }
    if forall x :: x in xs ==> !Problematic(cs, x) {
      NoneProblematic(cs, xs);
    }
  }

  /** The verdict in terms of the records: no customer is underage (which
      covers future births), no interaction lies in the future or before its
      customer's creation, some customer's representative exists, and no
      group has more than twice the customers of another. */
  lemma BusinessVerdict(s: Store, now: int)
    ensures BusinessCorrect(CheckBusinessLogic(s, now)) <==>
              && (forall c :: c in s.customers ==> !IsUnderage(c, Today(now)))
              && (forall x :: x in s.interactions ==> x.date <= now)
              && (forall x :: x in s.interactions ==> !Problematic(s.customers, x))
              && (exists c :: c in s.customers && HasUser(s, c.salesRepId))
              && (forall a, b :: a in RepLoads(s.customers, s.users) && b in RepLoads(s.customers, s.users) ==> a <= 2 * b)
  {
    CountProblematicZero(s.customers, s.interactions);
  }
}

=== FILE: views.dfy ===
/** The read side of the web interface (crm_app/views.py): the customer and
    company lists with their query-string filters and ordering, the
    per-customer interaction counts of the detail page, and the percentage
    guard of the dashboard.

    A query-string parameter is `None` when absent and `Some(text)` when
    given; Python's truthiness test `if value:` is `Given`. */
module Views {
  import opened Wrappers
  import opened Seqs
  import opened Text
  import opened Sorting
  import opened Models
  import Validate

  /** `if value:` on a query-string parameter: present and not empty. */
  predicate Given(p: Option<string>) {
    p.Some? && |p.value| > 0
  }

  // ---------------------------------------------------------------------
  // Filters
  // ---------------------------------------------------------------------

  /** The `status` parameter: "active" and "inactive" select, anything else
      (including no parameter) does not filter. */
  datatype StatusFilter = ActiveOnly | InactiveOnly | AnyStatus

  function ParseStatus(p: Option<string>): (r: StatusFilter)
    ensures r == ActiveOnly <==> p == Some("active")
    ensures r == InactiveOnly <==> p == Some("inactive")
  {
    if p == Some("active") then ActiveOnly
    else if p == Some("inactive") then InactiveOnly
    else AnyStatus
  }

  predicate StatusAllows(st: StatusFilter, isActive: bool) {
    match st
    case ActiveOnly => isActive
    case InactiveOnly => !isActive
    case AnyStatus => true
  }

  /** `Q(first_name__icontains=q) | Q(last_name__icontains=q)`, applied only
      when a search text is given. */
  predicate SearchKeeps(c: Customer, search: Option<string>) {
    Given(search) ==> ContainsIgnoreCase(c.firstName, search.value) || ContainsIgnoreCase(c.lastName, search.value)
  }

  /** `filter(company_id=...)`, applied only when a company is given. The
      parameter arrives already read as a number. */
  predicate CompanyKeeps(c: Customer, company: Option<nat>) {
    company.Some? ==> c.companyId == company.value
  }

  predicate CustomerStatusKeeps(c: Customer, status: Option<string>) {
    StatusAllows(ParseStatus(status), c.isActive)
  }

  function SearchCustomers(cs: seq<Customer>, search: Option<string>): seq<Customer> {
    Filter(cs, c => SearchKeeps(c, search))
  }

  function FilterCustomersByCompany(cs: seq<Customer>, company: Option<nat>): seq<Customer> {
    Filter(cs, c => CompanyKeeps(c, company))
  }

  function FilterCustomersByStatus(cs: seq<Customer>, status: Option<string>): seq<Customer> {
    Filter(cs, c => CustomerStatusKeeps(c, status))
  }

  /** The query string of the customer list. */
  datatype CustomerQuery = CustomerQuery(
    search: Option<string>,
    company: Option<nat>,
    status: Option<string>,
    ordering: Option<string>)

  /** A customer is listed when it passes all three filters. */
  predicate CustomerSelected(c: Customer, q: CustomerQuery) {
    SearchKeeps(c, q.search) && CompanyKeeps(c, q.company) && CustomerStatusKeeps(c, q.status)
  }

  /** The three filters of `CustomerListView.get_queryset`, in its order. */
  function FilterCustomers(cs: seq<Customer>, q: CustomerQuery): (r: seq<Customer>)
    ensures forall c :: c in r <==> c in cs && CustomerSelected(c, q)
    ensures multiset(r) <= multiset(cs)
    ensures Distinct(cs) ==> Distinct(r)
  {
    FilterCustomersByStatus(FilterCustomersByCompany(SearchCustomers(cs, q.search), q.company), q.status)
  }

  /** The filters compose as one conjunction: the list is the single-pass
      filter by `CustomerSelected`, and each of the six orders of applying
      the three filters gives that list. */
  lemma FilterOrderIrrelevant(cs: seq<Customer>, q: CustomerQuery)
    ensures FilterCustomers(cs, q) == Filter(cs, c => CustomerSelected(c, q))
    ensures FilterCustomers(cs, q)
            == FilterCustomersByStatus(SearchCustomers(FilterCustomersByCompany(cs, q.company), q.search), q.status)
    ensures FilterCustomers(cs, q)
            == FilterCustomersByCompany(FilterCustomersByStatus(SearchCustomers(cs, q.search), q.status), q.company)
    ensures FilterCustomers(cs, q)
            == SearchCustomers(FilterCustomersByStatus(FilterCustomersByCompany(cs, q.company), q.status), q.search)
    ensures FilterCustomers(cs, q)
            == FilterCustomersByCompany(SearchCustomers(FilterCustomersByStatus(cs, q.status), q.search), q.company)
    ensures FilterCustomers(cs, q)
            == SearchCustomers(FilterCustomersByCompany(FilterCustomersByStatus(cs, q.status), q.company), q.search)
  {
    var s := (c: Customer) => SearchKeeps(c, q.search);
    var k := (c: Customer) => CompanyKeeps(c, q.company);
    var t := (c: Customer) => CustomerStatusKeeps(c, q.status);
    var all := (c: Customer) => CustomerSelected(c, q);
    FilterThree(cs, s, k, t, all);
    FilterThree(cs, k, s, t, all);
    FilterThree(cs, s, t, k, all);
    FilterThree(cs, k, t, s, all);
    FilterThree(cs, t, s, k, all);
    FilterThree(cs, t, k, s, all);
  }

  /** Each filter without its parameter keeps everything. */
  lemma AbsentFiltersKeepAll(cs: seq<Customer>)
    ensures FilterCustomers(cs, CustomerQuery(None, None, None, None)) == cs
  {
    var q := CustomerQuery(None, None, None, None);
    FilterKeepsAll(cs, c => SearchKeeps(c, q.search));
    FilterKeepsAll(cs, c => CompanyKeeps(c, q.company));
    FilterKeepsAll(cs, c => CustomerStatusKeeps(c, q.status));
  }

  /** The search keeps a customer exactly when the lower-cased search text
      occurs in the lower-cased first or last name. */
  lemma SearchMeaning(c: Customer, search: string)
    requires |search| > 0
    ensures SearchKeeps(c, Some(search)) <==>
              (exists i :: OccursAt(Lower(search), Lower(c.firstName), i))
              || (exists i :: OccursAt(Lower(search), Lower(c.lastName), i))
  {
    ContainsIgnoreCaseMeaning(c.firstName, search);
    ContainsIgnoreCaseMeaning(c.lastName, search);
  }

  // ---------------------------------------------------------------------
  // Ordering
  // ---------------------------------------------------------------------

  /** The orderings the model supports. `Unordered` is a query without
      `order_by`: the queryset is annotated with an aggregate, so it is
      grouped, and Django (from release 3.1) does not apply `Meta.ordering`
      to grouped queries; the database returns the rows in no promised
      order. */
  datatype CustomerOrder = ByFirstName | ByLastName | Unordered

  /** A requested ordering field the model does not support. */
  datatype ListError = UnsupportedOrdering(field: string)

  /** `GET.get('ordering', 'first_name')`: absent means `first_name`; the
      empty text skips `order_by`. */
  function CustomerOrderOf(p: Option<string>): (r: Result<CustomerOrder, ListError>)
    ensures p.None? ==> r == Success(ByFirstName)
    ensures p == Some("") ==> r == Success(Unordered)
    ensures p == Some("first_name") ==> r == Success(ByFirstName)
    ensures p == Some("last_name") ==> r == Success(ByLastName)
    ensures r.Failure? <==> p.Some? && p.value !in {"", "first_name", "last_name"}
  {
    match p
    case None => Success(ByFirstName)
    case Some(f) =>
      if f == "" then Success(Unordered)
      else if f == "first_name" then Success(ByFirstName)
      else if f == "last_name" then Success(ByLastName)
      else Failure(UnsupportedOrdering(f))
  }

  function FirstNameKey(c: Customer): SortKey {
    SortKey(c.firstName, "")
  }

  function LastNameKey(c: Customer): SortKey {
    SortKey(c.lastName, "")
  }

  function CustomerKey(o: CustomerOrder): Customer -> SortKey
    requires o != Unordered
  {
    match o
    case ByFirstName => FirstNameKey
    case ByLastName => LastNameKey
  }

  /** A named ordering field sorts by that field of the customer alone. */
  lemma NamedOrderSortsByField(f: string, c: Customer)
    requires f == "first_name" || f == "last_name"
    ensures CustomerOrderOf(Some(f)).Success?
    ensures CustomerKey(CustomerOrderOf(Some(f)).value)(c)
            == SortKey(if f == "first_name" then c.firstName else c.lastName, "")
  {
  }

  /** `CustomerListView.get_queryset`: the filtered customers, in the
      requested order. Without `order_by` the rows come in the database's
      order, which the model takes to be table order and promises nothing
      about. */
  function CustomerList(cs: seq<Customer>, q: CustomerQuery): (r: Result<seq<Customer>, ListError>)
    ensures r.Failure? <==> CustomerOrderOf(q.ordering).Failure?
    ensures r.Success? ==> forall c :: c in r.value <==> c in cs && CustomerSelected(c, q)
    ensures r.Success? ==> multiset(r.value) == multiset(FilterCustomers(cs, q))
    ensures r.Success? ==> multiset(r.value) <= multiset(cs)
    ensures r.Success? && Distinct(cs) ==> Distinct(r.value)
    ensures r.Success? && CustomerOrderOf(q.ordering).value != Unordered ==>
              Sorted(r.value, CustomerKey(CustomerOrderOf(q.ordering).value))
  {
    var order :- CustomerOrderOf(q.ordering);
    var selected := FilterCustomers(cs, q);
    var r := if order == Unordered then selected else Sort(selected, CustomerKey(order));
    assert forall c :: c in r <==> c in multiset(selected);
    if Distinct(cs) then
      DistinctPermutation(selected, r);
      Success(r)
    else
      Success(r)
  }

  /** With no query parameters the list is every customer, ordered by first
      name. */
  lemma NoParametersListsAll(cs: seq<Customer>)
    ensures CustomerList(cs, CustomerQuery(None, None, None, None)).Success?
    ensures multiset(CustomerList(cs, CustomerQuery(None, None, None, None)).value) == multiset(cs)
    ensures Sorted(CustomerList(cs, CustomerQuery(None, None, None, None)).value, FirstNameKey)
  {
    AbsentFiltersKeepAll(cs);
  }

  // ---------------------------------------------------------------------
  // Company list
  // ---------------------------------------------------------------------

  predicate NameSearchKeeps(co: Company, search: Option<string>) {
    Given(search) ==> ContainsIgnoreCase(co.name, search.value)
  }

  predicate CompanyStatusKeeps(co: Company, status: Option<string>) {
    StatusAllows(ParseStatus(status), co.isActive)
  }

  /** The query string of the company list. */
  datatype CompanyQuery = CompanyQuery(search: Option<string>, status: Option<string>, ordering: Option<string>)

  predicate CompanySelected(co: Company, q: CompanyQuery) {
    NameSearchKeeps(co, q.search) && CompanyStatusKeeps(co, q.status)
  }

  /** The name search, then the status filter. */
  function FilterCompanies(companies: seq<Company>, q: CompanyQuery): (r: seq<Company>)
    ensures forall co :: co in r <==> co in companies && CompanySelected(co, q)
    ensures multiset(r) <= multiset(companies)
    ensures Distinct(companies) ==> Distinct(r)
  {
    Filter(Filter(companies, co => NameSearchKeeps(co, q.search)), co => CompanyStatusKeeps(co, q.status))
  }

  function CompanyNameKey(co: Company): SortKey {
    SortKey(co.name, "")
  }

  /** `GET.get('ordering', 'name')`; the empty text skips `order_by`. */
  predicate CompanyOrderSupported(p: Option<string>) {
    p.None? || p.value == "" || p.value == "name"
  }

  /** `CompanyListView.get_queryset`: name search and status filter, then
      ordered by name. The queryset is annotated with a count, so without
      `order_by` (the empty text) `Meta.ordering` does not apply, as for
      customers, and the model keeps table order. */
  function CompanyList(companies: seq<Company>, q: CompanyQuery): (r: Result<seq<Company>, ListError>)
    ensures r.Failure? <==> !CompanyOrderSupported(q.ordering)
    ensures r.Success? ==> forall co :: co in r.value <==> co in companies && CompanySelected(co, q)
    ensures r.Success? ==> multiset(r.value) == multiset(FilterCompanies(companies, q))
    ensures r.Success? ==> multiset(r.value) <= multiset(companies)
    ensures r.Success? && Distinct(companies) ==> Distinct(r.value)
    ensures r.Success? && q.ordering != Some("") ==> Sorted(r.value, CompanyNameKey)
  {
    if !CompanyOrderSupported(q.ordering) then
      Failure(UnsupportedOrdering(q.ordering.value))
    else
      var selected := FilterCompanies(companies, q);
      var r := if q.ordering == Some("") then selected else Sort(selected, CompanyNameKey);
      assert forall co :: co in r <==> co in multiset(selected);
      if Distinct(companies) then
        DistinctPermutation(selected, r);
        Success(r)
      else
        Success(r)
  }

  /** Company names are unique, so the listed names are distinct, and they
      strictly increase whenever the list is ordered by name. */
  lemma CompanyListStrictlyOrdered(companies: seq<Company>, q: CompanyQuery)
    requires CompanyRowsValid(companies)
    requires CompanyList(companies, q).Success?
    ensures forall i, j :: 0 <= i < j < |CompanyList(companies, q).value| ==>
              CompanyList(companies, q).value[i].name != CompanyList(companies, q).value[j].name
    ensures q.ordering != Some("") ==>
              forall i, j :: 0 <= i < j < |CompanyList(companies, q).value| ==>
                StrLe(CompanyList(companies, q).value[i].name, CompanyList(companies, q).value[j].name)
  {
    var r := CompanyList(companies, q).value;
    DistinctRowsDistinctNames(r, companies);
    if q.ordering != Some("") {
      forall i, j | 0 <= i < j < |r|
        ensures StrLe(r[i].name, r[j].name)
      {
        assert KeyLe(CompanyNameKey(r[i]), CompanyNameKey(r[j]));
      }
    }
  }

  lemma DistinctRowsDistinctNames(r: seq<Company>, companies: seq<Company>)
    requires Distinct(r) && CompanyRowsValid(companies)
    requires forall co :: co in r ==> co in companies
    ensures forall i, j :: 0 <= i < j < |r| ==> r[i].name != r[j].name
  {
    forall i, j | 0 <= i < j < |r|
      ensures r[i].name != r[j].name
    {
      assert r[i] in r && r[j] in r;
    }
  }

  // ---------------------------------------------------------------------
  // Detail page
  // ---------------------------------------------------------------------

  /** The counts of `CustomerDetailView.get_context_data`. */
  datatype InteractionStats = InteractionStats(total: nat, calls: nat, emails: nat, meetings: nat, sms: nat, others: nat)

  predicate IsCall(x: Interaction) { x.kind == Call }
  predicate IsEmail(x: Interaction) { x.kind == Email }
  predicate IsMeeting(x: Interaction) { x.kind == Meeting }
  predicate IsSms(x: Interaction) { x.kind == SMS }

  /** `exclude(interaction_type__in=['Call', 'Email', 'Meeting', 'SMS'])`. */
  predicate IsOtherKind(x: Interaction) {
    x.kind !in {Call, Email, Meeting, SMS}
  }

  /** The five per-type counts over one customer's interactions: the four
      named types each count the interactions of that type, and "others"
      counts the Facebook, WhatsApp and Other ones. */
  function CountByKind(xs: seq<Interaction>): (r: InteractionStats)
    ensures r.calls + r.emails + r.meetings + r.sms + r.others == r.total == |xs|
    ensures r.calls == KindCount(xs, Call) && r.emails == KindCount(xs, Email)
    ensures r.meetings == KindCount(xs, Meeting) && r.sms == KindCount(xs, SMS)
    ensures r.others == KindCount(xs, Facebook) + KindCount(xs, WhatsApp) + KindCount(xs, Other)
    ensures r.others == 0 <==> forall x :: x in xs ==> x.kind in {Call, Email, Meeting, SMS}
  {
    KindsPartition(xs);
    TypesPartition(xs);
    CountZero(xs, IsOtherKind);
    SameKindCount(xs, IsCall, Call);
    SameKindCount(xs, IsEmail, Email);
    SameKindCount(xs, IsMeeting, Meeting);
    SameKindCount(xs, IsSms, SMS);
    InteractionStats(|xs|, Count(xs, IsCall), Count(xs, IsEmail), Count(xs, IsMeeting), Count(xs, IsSms), Count(xs, IsOtherKind))
  }

  /** Every interaction falls in exactly one of the five counts. */
  lemma {:induction false} KindsPartition(xs: seq<Interaction>)
    ensures Count(xs, IsCall) + Count(xs, IsEmail) + Count(xs, IsMeeting) + Count(xs, IsSms) + Count(xs, IsOtherKind) == |xs|
  {
    if |xs| > 0 {
      KindsPartition(xs[1..]);
    }
  }

  /** A test that holds exactly of type `t` counts `KindCount(xs, t)`. */
  lemma {:induction false} SameKindCount(xs: seq<Interaction>, p: Interaction -> bool, t: InteractionType)
    requires forall x :: p(x) == (x.kind == t)
    ensures Count(xs, p) == KindCount(xs, t)
  {
    if |xs| > 0 {
      SameKindCount(xs[1..], p, t);
    }
  }

  /** The interaction has type `t`. */
  predicate OfKind(x: Interaction, t: InteractionType) {
    x.kind == t
  }

  /** The interactions of customer `customerId` that have type `t`. */
  predicate OfCustomerWithKind(x: Interaction, customerId: nat, t: InteractionType) {
    OfCustomer(x, customerId) && x.kind == t
  }

  /** The interactions of customer `customerId` of none of the four named types. */
  predicate OfCustomerOtherKind(x: Interaction, customerId: nat) {
    OfCustomer(x, customerId) && IsOtherKind(x)
  }

  /** `CustomerDetailView.get_context_data`: the counts over the
      interactions of customer `customerId`. The total counts that
      customer's interactions, each named type counts that customer's
      interactions of the type, and "others" counts the rest of them. */
  function DetailStats(xs: seq<Interaction>, customerId: nat): (r: InteractionStats)
    ensures r.calls + r.emails + r.meetings + r.sms + r.others == r.total
    ensures r.total == Count(xs, x => OfCustomer(x, customerId)) && r.total <= |xs|
    ensures r.calls == Count(xs, x => OfCustomerWithKind(x, customerId, Call))
    ensures r.emails == Count(xs, x => OfCustomerWithKind(x, customerId, Email))
    ensures r.meetings == Count(xs, x => OfCustomerWithKind(x, customerId, Meeting))
    ensures r.sms == Count(xs, x => OfCustomerWithKind(x, customerId, SMS))
    ensures r.others == Count(xs, x => OfCustomerOtherKind(x, customerId))
    ensures r.total == 0 <==> forall x :: x in xs ==> x.customerId != customerId
  {
    var of := (x: Interaction) => OfCustomer(x, customerId);
    var own := Filter(xs, of);
    CountZero(xs, of);
    OwnKindCount(xs, customerId, Call);
    OwnKindCount(xs, customerId, Email);
    OwnKindCount(xs, customerId, Meeting);
    OwnKindCount(xs, customerId, SMS);
    CountWithin(xs, of, IsOtherKind, x => OfCustomerOtherKind(x, customerId));
    CountByKind(own)
  }

  /** Counting type `t` among one customer's interactions. */
  lemma OwnKindCount(xs: seq<Interaction>, customerId: nat, t: InteractionType)
    ensures KindCount(Filter(xs, x => OfCustomer(x, customerId)), t)
            == Count(xs, x => OfCustomerWithKind(x, customerId, t))
  {
    var of := (x: Interaction) => OfCustomer(x, customerId);
    var kind := (x: Interaction) => x.kind == t;
    SameKindCount(Filter(xs, of), kind, t);
    CountWithin(xs, of, kind, x => OfCustomerWithKind(x, customerId, t));
  }

  // ---------------------------------------------------------------------
  // Dashboard
  // ---------------------------------------------------------------------

  /** `count / total * 100`, as an exact quotient. */
  function Percent(count: nat, total: nat): real
    requires total > 0
  {
    count as real * (100.0 / total as real)
  }

  function Percents(counts: seq<nat>, total: nat): (r: seq<real>)
    requires total > 0
    ensures |r| == |counts|
  {
    if |counts| == 0 then [] else [Percent(counts[0], total)] + Percents(counts[1..], total)
  }

  lemma PercentBounds(count: nat, total: nat)
    requires total > 0
    ensures 0.0 <= Percent(count, total)
    ensures count <= total ==> Percent(count, total) <= 100.0
  {
    var scale := 100.0 / total as real;
    assert scale * total as real == 100.0;
    assert scale > 0.0;
  }

  /** The dashboard's guard: percentages are attached only when the total is
      positive, so the division never sees a zero total. */
  function Shares(counts: seq<nat>, total: nat): (r: Option<seq<real>>)
    ensures r.None? <==> total == 0
    ensures r.Some? ==> |r.value| == |counts|
    ensures r.Some? ==> forall i :: 0 <= i < |counts| ==> r.value[i] == Percent(counts[i], total)
    ensures r.Some? ==> forall i :: 0 <= i < |counts| ==> 0.0 <= r.value[i] && (counts[i] <= total ==> r.value[i] <= 100.0)
  {
    if total > 0 then
      var ps := Percents(counts, total);
      assert forall i :: 0 <= i < |counts| ==> ps[i] == Percent(counts[i], total)
                                                && 0.0 <= ps[i] && (counts[i] <= total ==> ps[i] <= 100.0) by {
        forall i | 0 <= i < |counts|
          ensures ps[i] == Percent(counts[i], total) && 0.0 <= ps[i] && (counts[i] <= total ==> ps[i] <= 100.0)
        {
          PercentAt(counts, total, i);
          PercentBounds(counts[i], total);
        }
      }
      Some(ps)
    else
      None
  }

  lemma {:induction false} PercentAt(counts: seq<nat>, total: nat, i: nat)
    requires total > 0 && i < |counts|
    ensures Percents(counts, total)[i] == Percent(counts[i], total)
  {
    if i > 0 {
      PercentAt(counts[1..], total, i - 1);
    }
  }

  function SumReals(xs: seq<real>): real {
    if |xs| == 0 then 0.0 else xs[0] + SumReals(xs[1..])
  }

  /** When the counts add up to the total, the percentages add up to 100. */
  lemma SharesSumTo100(counts: seq<nat>, total: nat)
    requires total > 0 && Sum(counts) == total
    ensures SumReals(Shares(counts, total).value) == 100.0
  {
    SumOfPercents(counts, total);
    assert total as real * (100.0 / total as real) == 100.0;
  }

  lemma {:induction false} SumOfPercents(counts: seq<nat>, total: nat)
    requires total > 0
    ensures SumReals(Percents(counts, total)) == Sum(counts) as real * (100.0 / total as real)
  {
    if |counts| > 0 {
      SumOfPercents(counts[1..], total);
    }
  }

  /** How many of `xs` have type `t`. */
  function KindCount(xs: seq<Interaction>, t: InteractionType): nat {
    if |xs| == 0 then 0 else (if xs[0].kind == t then 1 else 0) + KindCount(xs[1..], t)
  }

  /** The number of interactions of each type, in the order of the declared
      choices. */
  function TypeCounts(xs: seq<Interaction>): (r: seq<nat>)
    ensures |r| == |InteractionTypeChoices|
    ensures forall i :: 0 <= i < |r| ==> r[i] == Count(xs, x => OfKind(x, InteractionTypeChoices[i]))
    ensures forall i :: 0 <= i < |r| ==> r[i] <= |xs|
    ensures Sum(r) == |xs|
  {
    var r := seq(|InteractionTypeChoices|, i requires 0 <= i < |InteractionTypeChoices| => KindCount(xs, InteractionTypeChoices[i]));
    TypesPartition(xs);
    SumOfSeven(KindCount(xs, Call), KindCount(xs, Email), KindCount(xs, SMS), KindCount(xs, Facebook),
               KindCount(xs, WhatsApp), KindCount(xs, Meeting), KindCount(xs, Other));
    assert r == [KindCount(xs, Call), KindCount(xs, Email), KindCount(xs, SMS), KindCount(xs, Facebook),
                 KindCount(xs, WhatsApp), KindCount(xs, Meeting), KindCount(xs, Other)];
    KindCountsAsCounts(xs);
    r
  }

  /** Each type's count is the number of interactions of that type. */
  lemma KindCountsAsCounts(xs: seq<Interaction>)
    ensures forall i :: 0 <= i < |InteractionTypeChoices| ==>
              KindCount(xs, InteractionTypeChoices[i]) == Count(xs, x => OfKind(x, InteractionTypeChoices[i]))
              && KindCount(xs, InteractionTypeChoices[i]) <= |xs|
  {
    forall i | 0 <= i < |InteractionTypeChoices|
      ensures KindCount(xs, InteractionTypeChoices[i]) == Count(xs, x => OfKind(x, InteractionTypeChoices[i]))
    {
      SameKindCount(xs, x => OfKind(x, InteractionTypeChoices[i]), InteractionTypeChoices[i]);
    }
  }

  lemma SumOfSeven(a: nat, b: nat, c: nat, d: nat, e: nat, f: nat, g: nat)
    ensures Sum([a, b, c, d, e, f, g]) == a + b + c + d + e + f + g
  {
    SumCons(a, [b, c, d, e, f, g]);
    SumCons(b, [c, d, e, f, g]);
    SumCons(c, [d, e, f, g]);
    SumCons(d, [e, f, g]);
    SumCons(e, [f, g]);
    SumCons(f, [g]);
    SumCons(g, []);
  }

  lemma SumCons(x: nat, xs: seq<nat>)
    ensures Sum([x] + xs) == x + Sum(xs)
  {
    assert ([x] + xs)[1..] == xs;
  }

  /** Every interaction has exactly one of the seven types. */
  lemma {:induction false} TypesPartition(xs: seq<Interaction>)
    ensures KindCount(xs, Call) + KindCount(xs, Email) + KindCount(xs, SMS) + KindCount(xs, Facebook)
            + KindCount(xs, WhatsApp) + KindCount(xs, Meeting) + KindCount(xs, Other) == |xs|
  {
    if |xs| > 0 {
      TypesPartition(xs[1..]);
    }
  }

  /** The dashboard's type distribution: percentages exist exactly when
      there are interactions, and then they add up to 100. */
  lemma TypeSharesSumTo100(xs: seq<Interaction>)
    ensures Shares(TypeCounts(xs), |xs|).None? <==> |xs| == 0
    ensures |xs| > 0 ==> SumReals(Shares(TypeCounts(xs), |xs|).value) == 100.0
  {
    if |xs| > 0 {
      SharesSumTo100(TypeCounts(xs), |xs|);
    }
  }

  /** The figures of `DashboardView.get_context_data`. */
  datatype Dashboard = Dashboard(
    totalCustomers: nat,
    totalCompanies: nat,
    totalInteractions: nat,
    totalSalesReps: nat,
    repShares: Option<seq<real>>,
    typeShares: Option<seq<real>>)

  /** `DashboardView.get_context_data`: one percentage per representative
      group (customers of that representative over all customers) and one
      per interaction type (interactions of that type over all
      interactions), each present only when its total is positive. */
  function DashboardOf(s: Store): (r: Dashboard)
    ensures r.totalCustomers == |s.customers| && r.totalInteractions == |s.interactions|
    ensures r.totalCompanies == |s.companies|
    ensures r.repShares.None? <==> r.totalCustomers == 0
    ensures r.typeShares.None? <==> r.totalInteractions == 0
    ensures r.repShares.Some? ==>
              |r.repShares.value| == |Validate.RepIdsOf(s.customers, s.users)|
              && forall i :: 0 <= i < |r.repShares.value| ==>
                   r.repShares.value[i] == Percent(RepCount(s.customers, Validate.RepIdsOf(s.customers, s.users)[i]), |s.customers|)
    ensures r.repShares.Some? ==> forall p :: p in r.repShares.value ==> 0.0 <= p <= 100.0
    ensures r.typeShares.Some? ==>
              |r.typeShares.value| == |InteractionTypeChoices|
              && forall i :: 0 <= i < |r.typeShares.value| ==>
                   r.typeShares.value[i] == Percent(Count(s.interactions, x => OfKind(x, InteractionTypeChoices[i])), |s.interactions|)
    ensures r.typeShares.Some? ==> SumReals(r.typeShares.value) == 100.0
    ensures r.totalSalesReps + Count(s.users, IsSuperuser) == |s.users|
  {
    TypeSharesSumTo100(s.interactions);
    TypeSharesAre(s.interactions);
    RepSharesAre(s);
    CountSplit(s.users, IsSuperuser, IsSalesRep);
    Dashboard(
      |s.customers|,
      |s.companies|,
      |s.interactions|,
      Count(s.users, IsSalesRep),
      Shares(Validate.RepLoads(s.customers, s.users), |s.customers|),
      Shares(TypeCounts(s.interactions), |s.interactions|))
  }

  /** Each type's percentage is its share of all interactions. */
  lemma TypeSharesAre(xs: seq<Interaction>)
    ensures Shares(TypeCounts(xs), |xs|).Some? ==>
              |Shares(TypeCounts(xs), |xs|).value| == |InteractionTypeChoices|
              && forall i :: 0 <= i < |InteractionTypeChoices| ==>
                   Shares(TypeCounts(xs), |xs|).value[i] == Percent(Count(xs, x => OfKind(x, InteractionTypeChoices[i])), |xs|)
  {
    var counts := TypeCounts(xs);
    assert forall i :: 0 <= i < |InteractionTypeChoices| ==> counts[i] == Count(xs, x => OfKind(x, InteractionTypeChoices[i]));
  }

  /** Each representative's percentage is its share of all customers, and
      lies in [0, 100]. */
  lemma RepSharesAre(s: Store)
    ensures Shares(Validate.RepLoads(s.customers, s.users), |s.customers|).Some? ==>
              |Shares(Validate.RepLoads(s.customers, s.users), |s.customers|).value| == |Validate.RepIdsOf(s.customers, s.users)|
              && forall i :: 0 <= i < |Validate.RepIdsOf(s.customers, s.users)| ==>
                   Shares(Validate.RepLoads(s.customers, s.users), |s.customers|).value[i]
                   == Percent(RepCount(s.customers, Validate.RepIdsOf(s.customers, s.users)[i]), |s.customers|)
    ensures Shares(Validate.RepLoads(s.customers, s.users), |s.customers|).Some? ==>
              forall p :: p in Shares(Validate.RepLoads(s.customers, s.users), |s.customers|).value ==> 0.0 <= p <= 100.0
  {
    var loads := Validate.RepLoads(s.customers, s.users);
    var shares := Shares(loads, |s.customers|);
    if shares.Some? {
      forall p | p in shares.value
        ensures 0.0 <= p <= 100.0
      {
        var i :| 0 <= i < |shares.value| && shares.value[i] == p;
      }
    }
  }
}

=== FILE: wrappers.dfy ===
/** Failure-compatible wrappers used across the model: an optional value and
    the result of an operation that the system can refuse. */
module Wrappers {

  datatype Option<+T> = None | Some(value: T) {

    /** The wrapped value, or `default` when there is none. */
    function GetOr(default: T): T {
      match this
      case Some(v) => v
      case None => default
    }
  }

  datatype Result<+R, +E> = Success(value: R) | Failure(error: E) {

    predicate IsFailure() {
      Failure?
    }

    function PropagateFailure<U>(): Result<U, E>
      requires Failure?
    {
      Failure(error)
    }

    function Extract(): R
      requires Success?
    {
      value
    }
  }
}
